=== FILE: README.md ===
# gofs core, modelled in Dafny

This project models the core of gofs, a small Go library of file and
directory handles:

- the name validators and platform queries of `utils.go`;
- the directory handle of `dir.go`: create, list, filter, query, delete,
  `Clear`, `getTree` and `Move`;
- the file handle of `file.go`: `Create`, `CreateIfNotExists`, `Delete`,
  `Size` and `Copy` with its chunked copy loop.

The file system is abstract. A state is a map from a path to the node stored
there. A path is a sequence of name components, and a node is either a
regular file with its bytes or a directory (`FsModel`). Joining a directory
and a name, whether written `filepath.Join(d, name)` or `d + "/" + name`, is
appending the name.

The `os` calls the code makes are pure functions of a state, each returning
the new state and Go's error (`Os`): `Stat`, `ReadDir`, `Mkdir`, `MkdirAll`,
`Remove`, `RemoveAll`, `Create` and `Rename`. The handles are wrappers on
top of these calls. They take the state as a parameter and return the state
they leave behind, so every query looks at the state afresh, just as the Go
methods call `os.Stat` each time.

Modules, one per file:

| file | module | models |
|---|---|---|
| errors.dfy | `Errors` | Go's error values, `Option` and `Result` |
| lexical.dfy | `Lexical` | the name order `os.ReadDir` sorts by |
| fsmodel.dfy | `FsModel` | states, paths, validity of a state |
| os.dfy | `Os` | the `os` primitives |
| utils.dfy | `Utils` | `utils.go` |
| handles.dfy | `PathHandles` | `PathHandler`, `Dir`, `File` and their queries |
| file.dfy | `FileHandles` | `file.go` except `Copy` |
| dir.dfy | `DirHandles` | `dir.go` except `Move` |
| move.dfy | `DirMove` | `Dir.Move` and its `filepath.Walk` |
| copy.dfy | `FileCopy` | `File.Copy` |

Behaviour of the code worth knowing before reading the model:

- `CreateIfNotExist` on an existing regular file returns the error of
  `os.Mkdir` ("exists"), with nothing to tell it from other existing paths.
- `File.Create(false)` on a directory returns nil and changes nothing.
- `All` yields entries in the order `os.ReadDir` returns them, which is
  sorted by name. The model therefore lists them in lexicographic order.
- `Clear(true)` never recreates the directory after a successful delete.
  `Clear(false)` never reports a failed child delete. Both are under
  "## Findings".
- `CreateDir` and `CreateFile` validate neither the receiver nor the name.

Two things the code leaves to its environment are parameters here:

- `Copy`'s loop reads from and writes to the OS. Each iteration meets an
  `Event` taken from a script: a clean read, a short read, a failing read,
  or a failing write.
- `filepath.Walk` descends without a bound. The model's walk carries a
  depth budget (fuel) equal to the number of entries in the state once the
  new path has been made. `MoveNeverRunsOutOfDepth` proves that this budget
  is never exhausted by a non-recursive move, nor by a recursive move
  between disjoint trees, in a valid state.

## Model

| member | source | states |
|---|---|---|
| Utils.ClassIsForbiddenSet | utils.go:22 | the regular-expression character class, taken range by range as written, contains a character exactly when it is one of the nine characters Windows reserves in names (angle brackets, colon, double quote, both slashes, vertical bar, question mark, asterisk) or a control character below 0x20 |
| Utils.MatchString | utils.go:42 | the regular-expression match succeeds iff some character of the string is reserved or a control character |
| Utils.IsValidFileName | utils.go:37-47 | a file name is valid iff none of its characters is reserved or a control character |
| Utils.IsValidDirName | utils.go:20-35 | a valid directory name is a valid file name; a name other than "." and ".." that ends in a space or a period is rejected |
| Utils.DirNameIsFileNamePlusTrailingRule | utils.go:20-47 | directory-name validity is exactly file-name validity plus the trailing space/period rule with its "." and ".." exception |
| Utils.FileNameValidityIsPerCharacter | utils.go:37-47 | `a + b` is a valid file name iff both `a` and `b` are |
| Utils.ExampleInvalidNames | utils.go:20-47 | "a:b.txt" is not a valid file name and "abc " is not a valid directory name |
| Utils.ExampleValidNames | utils.go:20-47 | "." and ".." are valid directory names, and "normal_name.txt" and the empty string are valid file names |
| Utils.PlatformsExclusive | utils.go:49-58 | no separator makes the platform both Windows and Unix; `\` is Windows and `/` is Unix |
| PathHandles.Classification | dir.go:18 | `Exists` holds iff the path is in the state; `IsFile` and `IsDir` hold iff it is a regular file or a directory; existing means exactly one of the two |
| PathHandles.NameOfJoin | file.go:46 | the final name of a directory path joined with a name is that name |
| PathHandles.ToDir | file.go:35 | converting a path to a directory handle keeps the path |
| PathHandles.ToFile | dir.go:53 | converting a path to a file handle keeps the path |
| Os.Stat | file.go:20 | succeeds iff the path exists, and then returns the node stored there; in a valid state a failure is "not a directory" exactly when some proper prefix of the path is a regular file, and "not exist" otherwise |
| Os.ReadDir | dir.go:300 | succeeds iff the path is a directory; the names are strictly sorted and are exactly the names of its entries; in a valid state a failure is "not a directory" exactly when the path or one of its proper prefixes is a regular file, and "not exist" otherwise |
| Os.Mkdir | dir.go:22 | succeeds iff the path is new, not the root, and its parent is a directory; it then adds exactly that directory, and on failure changes nothing; validity is preserved; the error is "exists" exactly when the path exists, and otherwise, in a valid state, "not a directory" exactly when a proper prefix is a regular file |
| Os.MkdirAll | dir.go:129 | keeps every existing entry and adds only directories along the path; in a valid state it succeeds iff no existing prefix of the path is a regular file, and the path is then a directory |
| Os.Remove | file.go:29 | succeeds iff the path exists, is not the root, and is a regular file or an empty directory; it then removes exactly that path, and on failure changes nothing; a missing path gives "not exist" or, in a valid state exactly when a proper prefix is a regular file, "not a directory" |
| Os.RemoveAll | dir.go:81 | removes the path and everything below it, and succeeds on a missing path, except that a missing path whose parent is not a directory but lies at or below a regular file fails with "not a directory" and changes nothing (in a valid state: exactly when the path lies below a regular file); for the root it keeps the root itself and reports "busy"; a valid state stays valid |
| Os.Create | file.go:79 | succeeds iff the path is a regular file, or is new in an existing directory; the path then holds an empty file, and on failure nothing changes; the error is "is a directory" exactly for a directory, and otherwise, in a valid state, "not a directory" exactly when a proper prefix is a regular file |
| Os.Rename | dir.go:156 | moving a regular file succeeds iff the target is the source, or the target's parent is a directory and the target is not a directory; the file then leaves its old path and appears at the target with its data; a directory target gives "exists", and otherwise, in a valid state, "not a directory" exactly when a proper prefix of the target is a regular file |
| FileHandles.NewFile | file.go:14-16 | the handle wraps the given path unchanged |
| FileHandles.Size | file.go:18-22 | for an existing regular file, the size is the number of bytes stored |
| FileHandles.Delete | file.go:28-31 | succeeds iff the path is removable (a regular file or empty directory, not the root); it then removes exactly that path, and on failure changes nothing |
| FileHandles.Create | file.go:71-81 | an existing path with `overwrite` unset is left alone and nil is returned, whether it is a file or a directory; with `overwrite` an existing file or empty directory becomes an empty file, and a non-empty directory yields the "is a directory" error; a missing path becomes an empty file iff its parent is a directory |
| FileHandles.CreateIfNotExists | file.go:83-85 | an existing path is left alone with nil; a missing one succeeds iff its parent is a directory, and then becomes an empty file; a failure is "not a directory" (in a valid state exactly when the path lies below a regular file) or "not exist" and changes nothing; a valid state stays valid |
| FileHandles.CreateIfNotExistsIdempotent | file.go:83-85 | a second call after a successful one returns nil and changes nothing |
| FileHandles.OverwriteEmptiesFile | file.go:72-80 | `Create(true)` on an existing file succeeds and leaves a file of size 0 |
| DirHandles.CreateIfNotExist | dir.go:17-25 | an existing directory is left alone with nil; an existing file yields "exists" with no change; a missing path succeeds iff its parent is a directory, adding that one directory |
| DirHandles.CreateIfNotExistIdempotent | dir.go:17-25 | two calls have the same outcome as one |
| DirHandles.CreateDir | dir.go:214-219 | the returned handle names the child; the child directory is added exactly when the receiver is a directory and the child does not exist, and the error is dropped |
| DirHandles.CreateFile | dir.go:221-229 | the result is an error exactly when `File.Create` on the joined path reports one, and it is that error; a new child of a directory becomes an empty file and its handle is returned; when the receiver is not a directory, a new child yields an error and no change; an existing child with `overwrite` unset is returned untouched; with `overwrite`, an existing regular file or empty directory child becomes an empty file and its handle is returned, and a non-empty directory child yields the "is a directory" error with no change |
| DirHandles.All | dir.go:27-41 | succeeds iff the path is a directory; it yields one handle per listed name, in listing order, each the directory joined with that name; otherwise it returns the listing error |
| DirHandles.AllIsChildren | dir.go:27-41 | the handles listed are exactly the entries directly inside the directory |
| DirHandles.AllDistinct | dir.go:27-41 | no handle is listed twice |
| DirHandles.KeepNonDirs | dir.go:48-55 | keeps, in order, exactly the entries that are not directories |
| DirHandles.KeepNonFiles | dir.go:64-71 | keeps, in order, exactly the entries that are not regular files |
| DirHandles.Files | dir.go:42-56 | fails iff `All` fails, with its error; otherwise an order-preserving selection of `All`'s entries holding exactly those that are not directories |
| DirHandles.Dirs | dir.go:58-72 | fails iff `All` fails, with its error; otherwise an order-preserving selection of `All`'s entries holding exactly those that are not regular files |
| DirHandles.FilesAndDirsPartitionAll | dir.go:42-72 | each entry directly inside the directory is in `Files` iff it is a regular file, in `Dirs` iff it is a directory, and in exactly one of them |
| DirHandles.HasDir | dir.go:184-191 | true iff the named child is a directory |
| DirHandles.HasFile | dir.go:193-200 | true iff the named child is a regular file |
| DirHandles.HasDirAndHasFileExclusive | dir.go:184-200 | never both; both false iff the child is missing |
| DirHandles.IsEmpty | dir.go:296-305 | true iff the path is a directory with no entries; a missing path or a file is not empty |
| DirHandles.IsEmptyMeansNoChildren | dir.go:296-305 | empty iff a directory whose set of child names is empty |
| DirHandles.Delete | dir.go:75-84 | without `recursive`, it succeeds iff the directory is removable and removes only it; with `recursive`, it removes the whole subtree and fails only on the root or, for a missing path whose parent is not a directory but lies below a regular file, with "not a directory" and no change (in a valid state: fails iff the path is the root or lies below a regular file); it never adds or alters an entry |
| DirHandles.DeleteSubDir | dir.go:94-103 | deletes the named child as `Delete` would: the recursive form succeeds unless the child is missing and the receiver is not a directory but lies at or below a regular file, which gives "not a directory" and no change (in a valid state: exactly when the receiver is a regular file or lies below one); the other succeeds iff the child is removable; nothing outside the child's subtree changes |
| DirHandles.DeletePath | dir.go:286 | a directory is deleted with `Dir.Delete` and anything else with `File.Delete`; without force it succeeds iff the path is removable; with force a directory's subtree goes |
| DirHandles.DeleteEachIgnoringErrors | dir.go:285-290 | deleting sibling entries one by one, dropping errors, removes exactly those entries that were removable at the start |
| DirHandles.Clear | dir.go:268-294 | an empty directory is left alone; with force it always returns nil, and in a valid state a directory other than the root that has entries is gone with its whole subtree; without force it returns nil iff the path is a directory, having removed exactly the children that were removable; every surviving entry keeps its node, and a valid state stays valid |
| DirHandles.ClearForceLeavesNoDirectory | dir.go:273-279 | `Clear(true)` on a directory with an entry returns nil, yet the directory no longer exists |
| DirHandles.ClearSwallowsDeleteError | dir.go:281-290 | `Clear(false)` on a directory with a non-empty subdirectory returns nil, yet that subdirectory is still there |
| DirHandles.DeleteEachStopping | dir.go:285-290 | with each delete's error checked: success means every path is gone; nothing else is removed and nothing is altered |
| DirHandles.ClearIntended | dir.go:268-294 | the corrected `Clear`: on success the directory exists and is empty, nothing outside it changes, and no entry other than the directory itself is added |
| DirHandles.ClearIntendedReportsNestedEntry | dir.go:281-290 | the corrected `Clear(false)` reports an error for a directory with a non-empty subdirectory |
| DirHandles.CollectTree | dir.go:249-257 | the loop completes iff no remaining entry is a directory, and then the files collected are those entries, in order |
| DirHandles.GetTree | dir.go:244-262 | an unlistable path gives the empty structure; otherwise it completes iff no child is a directory, with an empty directory map and the files in listing order |
| DirMove.Move | dir.go:115-126 | a source that is not a directory gives "not exist" and no change |
| DirMove.MoveRelocates | dir.go:115-177 | between disjoint trees in a valid state, whatever the outcome: the state stays valid, nothing outside both trees changes, new entries lie along or below the new path, and every regular file of the old tree is in place or at its mirror with its data; a recursive success mirrors every entry and leaves nothing under the old path; a non-recursive success has moved every file and kept every directory |
| DirMove.MoveNonRecursiveCreatesNoSubdirectories | dir.go:146-153 | without `recursive`, the only directories the move can create are the new path and its ancestors |
| DirMove.MoveNonRecursiveMovesOnlyTopLevelFiles | dir.go:146-160 | between disjoint trees, when nothing lies below the new path, a non-recursive move succeeds only if every file of the old tree sits directly inside it |
| DirMove.MoveNeverRunsOutOfDepth | dir.go:135-162 | in a valid state, the walk never exhausts its depth budget when the move is non-recursive (for any new path), or recursive between disjoint trees |
| DirMove.VisitEntryRelocates | dir.go:135-162 | between disjoint trees, one visit of the walk keeps the state valid, changes nothing outside the entry's subtree and its mirror, and leaves each file of the subtree in place or at its mirror; on success every file has moved, every directory remains, and with `recursive` every directory is mirrored |
| FileCopy.ChunkSize | file.go:53-55 | a read returns at most 4096 bytes and no more than remain; it returns none iff none remain |
| FileCopy.Transfer | file.go:54-66 | the loop writes a prefix of the source; ending with nil, it has written all of it; a failure is a wrapped read or write error; a script with no failing iteration ends with nil |
| FileCopy.Target | file.go:46 | the destination file lies directly inside the destination path, under the source's final name |
| FileCopy.Copy | file.go:33-69 | a failure to make the destination directory is returned first, with no other change; a missing source then yields "not a directory" when a proper prefix of it is a regular file and "not exist" otherwise, with nothing more changed; success leaves the destination a directory holding a regular file at the target |
| FileCopy.CopyReproducesFile | file.go:33-69 | copying a regular file elsewhere, when directory and target can be made, puts the source's bytes at the target; a failing iteration leaves a prefix of them and a read or write error; no failing iteration means success |
| FileCopy.CopyOntoItselfEmptiesFile | file.go:40-62 | copying a file into its own directory truncates it before reading, leaving it empty |
| FileCopy.CopyOfMissingFileStillMakesDirectory | file.go:35-43 | a missing source still leaves the newly made destination directory behind, with "not a directory" when a proper prefix of the source is a regular file and "not exist" otherwise |
| FileCopy.CopyOfDirectoryFailsOnRead | file.go:40-58 | a directory as source creates the empty target, then fails on the first read |

## Left out

- `DeleteAnything`, `Dir.Copy`, `Find`, `FindFile`, `FindDir`, `CreateFileWithString`, `GetAllPathExists`: these have empty bodies, so there is no behaviour to model.
- `CreateFileWithData` has a missing return, and `DeleteSubFile` has a bare `return` and ignores its name: neither compiles as written.
- `GetMetaData` and the `Read*`, `Write*`, `Append*` and `*Stream` methods of `File` are empty stubs.
- `Dir.Rename` is not part of this model: it is a direct call to `os.Rename` with a bare name.
- The `PathHandler` source file is not part of this model. `Exists`, `IsFile`, `IsDir`, `Name`, `Dir()`, `File()` and `DeletePath` are modelled as the evident queries and conversions on the state.
- Permission modes (`0777`, `os.ModePerm`, `info.Mode()`), symbolic links, `defer Close`, file descriptors and `syscall.Handle` are out of scope: the state has no permissions, links or open files.
- Concurrency and races between a check and the action after it are out of scope: each call sees one state.
- Separator handling: `IsWindows`, `IsUnix` and `GetSeparator` take `os.PathSeparator` as a parameter. The root is the empty path, so the double slash `All` would print for it is not modelled.
- `Os.Stat`: a failure is "not exist" or "not a directory" only. Permission errors cannot arise in the abstract state.
- `Os.Rename`: modelled only for a regular source, which is the only kind `Move`'s walk renames.
- `FileHandles.Size`: requires an existing regular file. Existence is required because the source dereferences the `os.Stat` result before checking its error. A directory is excluded because the abstract state records no size for a directory, although Go's `stat.Size()` returns one.
- `Utils.IsValidDirName`: requires a non-empty name, because the source indexes the last byte first and panics on "".
- `DirMove.Move`: `d.IsDir()` is modelled as a plain boolean query.
- `DirMove.Move`: the walk spends one unit of fuel per level, with a budget of the entries present once the new path is made. `MoveNeverRunsOutOfDepth` shows that its model-only depth error cannot occur in a valid state for a non-recursive move, or for a recursive move between disjoint trees. For a recursive move whose new path lies inside the old tree, or contains it, the walk also visits directories it made itself, and the model does not promise the budget suffices: there it may end with that model-only error where Go would go on.
- `DirMove.MoveRelocates`: it is stated only for a new path disjoint from the old tree. Moving a tree into itself is not covered.
- `DirMove.VisitEntryRelocates`: it is stated only for a walk whose old and new trees are disjoint. A visit during a move of a tree into itself is not covered.
- `DirMove.MoveNonRecursiveMovesOnlyTopLevelFiles`: it is stated only for a new path disjoint from the old tree. A non-recursive move into the old tree itself is not covered.
- `DirHandles.Clear`: with force, the removal of the subtree is promised in a valid state, or whenever the path is not a missing one below a regular file. In a state that is not valid, a missing path below a regular file whose parent is not a directory makes `RemoveAll` fail, and the model does not promise what the following `CreateIfNotExist` leaves.
- `FileCopy.Transfer`: success implies the whole source was written, but not conversely. A failing read after the last byte still reports an error although the destination is complete.
- `FileCopy.Copy`: `syscall.Write`'s byte count is ignored by the source; the model treats every successful write as complete.

## Findings

| source | as written | input that shows it | evidently intended | confidence | as-written member | corrected member |
|---|---|---|---|---|---|---|
| dir.go:273-280 | `Clear(true)` returns nil as soon as the recursive delete succeeds; `CreateIfNotExist` runs only in the branch where the delete failed | a directory `d` holding one file; `Clear(true)` returns nil and `d` no longer exists | delete, then recreate the directory, so that it exists and is empty | not executed | DirHandles.ClearForceLeavesNoDirectory | DirHandles.ClearIntended |
| dir.go:285-290 | the loop drops `DeletePath`'s result and tests the stale listing error, which is always nil there | a directory `d` holding a directory `d/a` that holds a file; `Clear(false)` returns nil and `d/a` remains | return the first failed delete | not executed | DirHandles.ClearSwallowsDeleteError | DirHandles.ClearIntendedReportsNestedEntry |

=== FILE: copy.dfy ===
/** `File.Copy` (file.go): make sure the destination directory exists, open
    the source, create the destination file inside the destination directory
    under the source's name, then move the bytes across in chunks of at most
    4096 until a read returns none.

    The byte-level calls cannot fail or return short counts on their own in
    an abstract state, so what each loop iteration meets is a parameter: a
    script with one `Event` per iteration, read as `Clean` once it runs out. */
module FileCopy {
  import opened Errors
  import opened FsModel
  import opened PathHandles
  import DirHandles
  import Os

  /** The size of the buffer the loop reads into. */
  const BufSize: nat := 4096

  type Positive = n: nat | n > 0 witness 1

  /** What one iteration of the loop meets: an ordinary read, a read that
      returns at most `most` bytes though more are left, a failing read, or a
      read that succeeds followed by a failing write. */
  datatype Event = Clean | ShortRead(most: Positive) | ReadFault | WriteFault

  /** How the loop ends: the bytes it wrote and its error. */
  datatype Pumped = Pumped(written: seq<byte>, err: Option<Error>)

  /** No iteration of the script fails. */
  predicate Faultless(script: seq<Event>)
  {
    forall i :: 0 <= i < |script| ==> !script[i].ReadFault? && !script[i].WriteFault?
  }

  function Min(a: nat, b: nat): nat
  {
    if a <= b then a else b
  }

  /** How many bytes a read returns when `left` remain after the offset. */
  function ChunkSize(left: nat, e: Event): (n: nat)
    ensures n <= BufSize && n <= left
    ensures n == 0 <==> left == 0
  {
    var full := Min(BufSize, left);
    if e.ShortRead? then Min(full, e.most) else full
  }

  /** The copy loop from offset `pos` of the source: each iteration reads a
      chunk, stops with nil on a read of zero bytes, returns the wrapped
      error of a failing read or write at once, and otherwise writes the
      chunk. Whatever ends it, it has written a prefix of the rest of the
      source; when it ends with nil it has written all of it, and a script
      with no failures guarantees nil. */
  function Transfer(source: seq<byte>, pos: nat, script: seq<Event>): (r: Pumped)
    requires pos <= |source|
    ensures r.written <= source[pos..]
    ensures r.err.None? ==> r.written == source[pos..]
    ensures r.err.Some? ==> r.err == Some(ReadingSource(ErrIo)) || r.err == Some(WritingDestination(ErrIo))
    ensures Faultless(script) ==> r.err.None?
    decreases |source| - pos
  {
    var e := if script == [] then Clean else script[0];
    var rest := if script == [] then [] else script[1..];
    assert Faultless(script) ==> Faultless(rest);
    if e.ReadFault? then Pumped([], Some(ReadingSource(ErrIo)))
    else
      var n := ChunkSize(|source| - pos, e);
      if n == 0 then Pumped([], None)
      else if e.WriteFault? then Pumped([], Some(WritingDestination(ErrIo)))
      else
        var more := Transfer(source, pos + n, rest);
        assert source[pos..] == source[pos..pos + n] + source[pos + n..];
        Pumped(source[pos..pos + n] + more.written, more.err)
  }

  /** Where `Copy` puts the copy: inside the destination directory, under
      the source's final name. */
  function Target(f: File, destPath: PathHandler): (t: Path)
    ensures |t| == |destPath| + 1 && destPath < t
    ensures PathHandles.Name(t) == PathHandles.Name(f.path)
  {
    destPath + [PathHandles.Name(f.path)]
  }

  /** `File.Copy` as written. `destPath.Dir()` is the destination path as a
      directory handle, which `CreateIfNotExist` makes one level deep. The
      reads see the source path as the creation of the destination left it,
      so a copy of a file onto itself reads the truncated file. */
  function Copy(fs: FileSystem, f: File, destPath: PathHandler, script: seq<Event>): (r: Outcome)
    ensures var made := DirHandles.CreateIfNotExist(fs, ToDir(destPath));
            && (made.err.Some? ==> r == made)
            && (made.err.None? && f.path !in made.fs ==>
                  && r.fs == made.fs
                  && (r.err == Some(ErrNotExist) || r.err == Some(ErrNotDir))
                  && (Valid(fs) ==> (r.err == Some(ErrNotDir) <==> Os.UnderFile(made.fs, f.path))))
    ensures r.err.None? ==> IsDirectory(r.fs, destPath) && IsRegular(r.fs, Target(f, destPath))
    ensures Valid(fs) ==> Valid(r.fs)
  {
    var made := DirHandles.CreateIfNotExist(fs, ToDir(destPath));
    if made.err.Some? then made
    else if Os.Stat(made.fs, f.path).Err? then Outcome(made.fs, Some(Os.Stat(made.fs, f.path).error))
    else
      var target := Target(f, destPath);
      var created := Os.Create(made.fs, target);
      if created.err.Some? then Outcome(created.fs, Some(CreatingDestination(created.err.value)))
      else
        var source := created.fs[f.path];
        if source.Directory? then Outcome(created.fs, Some(ReadingSource(ErrIsDir)))
        else
          var pumped := Transfer(source.data, 0, script);
          Outcome(created.fs[target := Regular(pumped.written)], pumped.err)
  }

  /** The state after the first three steps, when they succeed. */
  function Prepared(fs: FileSystem, f: File, destPath: PathHandler): FileSystem
  {
    DirHandles.CreateIfNotExist(fs, ToDir(destPath)).fs[Target(f, destPath) := Regular([])]
  }

  /** A copy of a regular file to another path, when the destination
      directory and file can be made, reproduces the file there and changes
      nothing else, unless an iteration of the loop fails; then the
      destination holds a prefix of the source and the error says which side
      failed. */
  lemma CopyReproducesFile(fs: FileSystem, f: File, destPath: PathHandler, script: seq<Event>)
    requires Valid(fs) && IsRegular(fs, f.path) && Target(f, destPath) != f.path
    requires IsDirectory(fs, destPath) || (destPath !in fs && destPath != [] && IsDirectory(fs, Parent(destPath)))
    requires !IsDirectory(fs, Target(f, destPath))
    ensures var r := Copy(fs, f, destPath, script);
            && (r.err.None? ==> r.fs == Prepared(fs, f, destPath)[Target(f, destPath) := fs[f.path]])
            && (Faultless(script) ==> r.err.None?)
            && (r.err.Some? ==> r.err == Some(ReadingSource(ErrIo)) || r.err == Some(WritingDestination(ErrIo)))
            && (r.err.Some? ==>
                  exists n :: 0 <= n <= |fs[f.path].data| &&
                    r.fs == Prepared(fs, f, destPath)[Target(f, destPath) := Regular(fs[f.path].data[..n])])
  {
    var target := Target(f, destPath);
    var made := DirHandles.CreateIfNotExist(fs, ToDir(destPath));
    assert made.err.None?;
    assert f.path in made.fs && made.fs[f.path] == fs[f.path];
    assert target != [] && IsDirectory(made.fs, Parent(target));
    var created := Os.Create(made.fs, target);
    assert created.err.None?;
    var source := fs[f.path].data;
    var pumped := Transfer(source, 0, script);
    assert source[0..] == source;
    if pumped.err.Some? {
      assert pumped.written == source[..|pumped.written|];
    }
  }

  /** Copying a file onto itself (into its own directory) truncates it
      before the first read, so the loop finds nothing to copy: the file is
      left empty. */
  lemma CopyOntoItselfEmptiesFile(fs: FileSystem, f: File, script: seq<Event>)
    requires Valid(fs) && IsRegular(fs, f.path) && f.path != []
    ensures var r := Copy(fs, f, Parent(f.path), script);
            && r.fs == fs[f.path := Regular([])]
            && (r.err.None? || r.err == Some(ReadingSource(ErrIo)))
  {
    var destPath := Parent(f.path);
    assert Target(f, destPath) == f.path;
    var made := DirHandles.CreateIfNotExist(fs, ToDir(destPath));
    assert made == Outcome(fs, None);
  }

  /** The destination directory is made before the source is opened, so a
      copy of a missing file still leaves that directory behind. The open
      reports `ENOTDIR` when a regular file lies on the source's path, and
      `ENOENT` otherwise. */
  lemma CopyOfMissingFileStillMakesDirectory(fs: FileSystem, f: File, destPath: PathHandler, script: seq<Event>)
    requires Valid(fs) && f.path !in fs && f.path != destPath
    requires destPath !in fs && destPath != [] && IsDirectory(fs, Parent(destPath))
    ensures var r := Copy(fs, f, destPath, script);
            && r.fs == fs[destPath := Directory]
            && (r.err == Some(ErrNotDir) <==> Os.UnderFile(fs, f.path))
            && (r.err == Some(ErrNotExist) <==> !Os.UnderFile(fs, f.path))
  {
    var made := fs[destPath := Directory];
    assert forall i :: 0 <= i < |f.path| ==> (IsRegular(made, f.path[..i]) <==> IsRegular(fs, f.path[..i]));
  }

  /** A source that is a directory opens, but its first read fails, after
      the destination file has been created empty. */
  lemma CopyOfDirectoryFailsOnRead(fs: FileSystem, f: File, destPath: PathHandler, script: seq<Event>)
    requires Valid(fs) && IsDirectory(fs, f.path) && IsDirectory(fs, destPath)
    requires Target(f, destPath) !in fs
    ensures var r := Copy(fs, f, destPath, script);
            r == Outcome(fs[Target(f, destPath) := Regular([])], Some(ReadingSource(ErrIsDir)))
  {
    assert Target(f, destPath) != f.path;
  }
}

=== FILE: dir.dfy ===
/** Directory handles (dir.go), all operations except `Move`, which is in
    move.dfy. `DeletePath` belongs to `PathHandler` in the source; it is here
    because it dispatches to both `Dir.Delete` and `File.Delete`. */
module DirHandles {
  import opened Errors
  import opened FsModel
  import opened PathHandles
  import FileHandles
  import Os
  import Lexical

  /** Go's `DirStructure`: subtrees keyed by the child's full path, and the
      files in listing order. */
  datatype DirStructure = DirStructure(dirs: map<PathHandler, DirStructure>, files: seq<File>)

  /** How `getTree` ends: with a value, or with the runtime panic of a write
      into the nil map `Dirs`. */
  datatype TreeOutcome = Built(tree: DirStructure) | Panicked

  datatype DirOutcome = DirOutcome(fs: FileSystem, dir: Dir)

  datatype FileOutcome = FileOutcome(fs: FileSystem, file: Result<File>)

  /** `p` is an entry directly inside `dir`. */
  predicate IsChildOf(p: PathHandler, dir: PathHandler)
  {
    |p| == |dir| + 1 && dir <= p
  }

  /** What `os.Remove` accepts: a regular file or an empty directory, never
      the root. */
  predicate Removable(fs: FileSystem, p: PathHandler)
  {
    p in fs && p != [] && (fs[p].Directory? ==> ChildNames(fs, p) == {})
  }

  /** `a` is `b` with some elements left out, the rest in their order. */
  predicate Subsequence(a: seq<PathHandler>, b: seq<PathHandler>)
    decreases |b|
  {
    if a == [] then true
    else if b == [] then false
    else (a[0] == b[0] && Subsequence(a[1..], b[1..])) || Subsequence(a, b[1..])
  }

  function FilePaths(files: seq<File>): (r: seq<PathHandler>)
    ensures |r| == |files|
    ensures forall i :: 0 <= i < |files| ==> r[i] == files[i].path
  {
    seq(|files|, i requires 0 <= i < |files| => files[i].path)
  }

  function DirPaths(dirs: seq<Dir>): (r: seq<PathHandler>)
    ensures |r| == |dirs|
    ensures forall i :: 0 <= i < |dirs| ==> r[i] == dirs[i].path
  {
    seq(|dirs|, i requires 0 <= i < |dirs| => dirs[i].path)
  }

  // ---------------------------------------------------------------- creation

  /** A directory that exists is left alone; anything else goes to
      `os.Mkdir`, which makes one level and refuses an existing file. */
  function CreateIfNotExist(fs: FileSystem, d: Dir): (r: Outcome)
    ensures IsDir(fs, d.path) ==> r == Outcome(fs, None)
    ensures IsFile(fs, d.path) ==> r == Outcome(fs, Some(ErrExist))
    ensures !Exists(fs, d.path) ==> (r.err.None? <==> d.path != [] && IsDirectory(fs, Parent(d.path)))
    ensures r.err.None? ==> IsDirectory(r.fs, d.path) && (r.fs == fs || r.fs == fs[d.path := Directory])
    ensures r.err.Some? ==> r.fs == fs
    ensures Valid(fs) ==> Valid(r.fs)
  {
    if Exists(fs, d.path) && IsDir(fs, d.path) then Outcome(fs, None)
    else Os.Mkdir(fs, d.path)
  }

  /** Calling `CreateIfNotExist` twice is calling it once. */
  lemma CreateIfNotExistIdempotent(fs: FileSystem, d: Dir)
    ensures CreateIfNotExist(CreateIfNotExist(fs, d).fs, d) == CreateIfNotExist(fs, d)
  {
  }

  /** The handle names the child; the creation error is discarded. */
  function CreateDir(fs: FileSystem, d: Dir, name: Name): (r: DirOutcome)
    ensures r.dir.path == d.path + [name]
    ensures IsDirectory(fs, d.path) && !Exists(fs, r.dir.path) ==> r.fs == fs[r.dir.path := Directory]
    ensures !IsDirectory(fs, d.path) || Exists(fs, r.dir.path) ==> r.fs == fs
  {
    var dir := Dir(d.path + [name]);
    var made := CreateIfNotExist(fs, dir);
    DirOutcome(made.fs, dir)
  }

  /** The handle of the child, or the error `File.Create` reports for it. */
  function CreateFile(fs: FileSystem, d: Dir, name: Name, overwrite: bool): (r: FileOutcome)
    ensures r.file.Ok? ==> r.file.value.path == d.path + [name]
    ensures (IsDirectory(fs, d.path) && !Exists(fs, d.path + [name]))
            ==> r.file.Ok? && r.fs == fs[d.path + [name] := Regular([])]
    ensures !IsDirectory(fs, d.path) && !Exists(fs, d.path + [name]) ==> r.file.Err? && r.fs == fs
    ensures Exists(fs, d.path + [name]) && !overwrite ==> r == FileOutcome(fs, Ok(File(d.path + [name])))
    ensures Valid(fs) && IsFile(fs, d.path + [name]) && overwrite
            ==> r == FileOutcome(fs[d.path + [name] := Regular([])], Ok(File(d.path + [name])))
    ensures Valid(fs) && IsDir(fs, d.path + [name]) && ChildNames(fs, d.path + [name]) == {} && overwrite
            ==> r == FileOutcome(fs[d.path + [name] := Regular([])], Ok(File(d.path + [name])))
    ensures IsDir(fs, d.path + [name]) && ChildNames(fs, d.path + [name]) != {} && overwrite
            ==> r == FileOutcome(fs, Err(ErrIsDir))
    ensures var made := FileHandles.Create(fs, File(d.path + [name]), overwrite);
            && (r.file.Err? <==> made.err.Some?)
            && (r.file.Err? ==> r.file.error == made.err.value)
  {
    var file := FileHandles.NewFile(d.path + [name]);
    var made := FileHandles.Create(fs, file, overwrite);
    if made.err.Some? then FileOutcome(made.fs, Err(made.err.value))
    else FileOutcome(made.fs, Ok(file))
  }

  // ---------------------------------------------------------------- listing

  /** One handle per listed name, in listing order; the read error otherwise. */
  function All(fs: FileSystem, d: Dir): (r: Result<seq<PathHandler>>)
    ensures r.Ok? <==> IsDirectory(fs, d.path)
    ensures r.Err? ==> r.error == Os.ReadDir(fs, d.path).error
    ensures r.Ok? ==> var names := Os.ReadDir(fs, d.path).value;
                      && |r.value| == |names|
                      && forall i :: 0 <= i < |r.value| ==> r.value[i] == d.path + [names[i]]
    ensures r.Ok? ==> forall n :: d.path + [n] in r.value <==> d.path + [n] in fs
    ensures r.Ok? ==> forall e :: e in r.value ==> e in fs && IsChildOf(e, d.path)
  {
    var listing := Os.ReadDir(fs, d.path);
    if listing.Err? then Err(listing.error)
    else
      var names := listing.value;
      Ok(seq(|names|, i requires 0 <= i < |names| => d.path + [names[i]]))
  }

  /** The listing holds exactly the entries directly inside the directory. */
  lemma AllIsChildren(fs: FileSystem, d: Dir)
    requires IsDirectory(fs, d.path)
    ensures forall k :: k in All(fs, d).value <==> k in fs && IsChildOf(k, d.path)
  {
    forall k | k in fs && IsChildOf(k, d.path) ensures k in All(fs, d).value {
      assert k == d.path + [k[|d.path|]];
    }
  }

  lemma AllDistinct(fs: FileSystem, d: Dir)
    requires IsDirectory(fs, d.path)
    ensures var es := All(fs, d).value;
            forall i, j :: 0 <= i < j < |es| ==> es[i] != es[j]
  {
    var es := All(fs, d).value;
    var names := Os.ReadDir(fs, d.path).value;
    Lexical.StrictlySortedPairs(names);
    forall i, j | 0 <= i < j < |es| ensures es[i] != es[j] {
      assert es[i][|d.path|] == names[i] && es[j][|d.path|] == names[j];
    }
  }

  /** The entries that are not directories, as files, in their order. */
  function KeepNonDirs(fs: FileSystem, entries: seq<PathHandler>): (r: seq<File>)
    ensures Subsequence(FilePaths(r), entries)
    ensures forall f :: f in r <==> f.path in entries && !IsDir(fs, f.path)
  {
    if entries == [] then []
    else
      var rest := KeepNonDirs(fs, entries[1..]);
      if IsDir(fs, entries[0]) then rest
      else
        assert FilePaths([File(entries[0])] + rest)[1..] == FilePaths(rest);
        [File(entries[0])] + rest
  }

  /** The entries that are not regular files, as directories, in their order. */
  function KeepNonFiles(fs: FileSystem, entries: seq<PathHandler>): (r: seq<Dir>)
    ensures Subsequence(DirPaths(r), entries)
    ensures forall dir :: dir in r <==> dir.path in entries && !IsFile(fs, dir.path)
  {
    if entries == [] then []
    else
      var rest := KeepNonFiles(fs, entries[1..]);
      if IsFile(fs, entries[0]) then rest
      else
        assert DirPaths([Dir(entries[0])] + rest)[1..] == DirPaths(rest);
        [Dir(entries[0])] + rest
  }

  function Files(fs: FileSystem, d: Dir): (r: Result<seq<File>>)
    ensures r.Ok? <==> All(fs, d).Ok?
    ensures r.Err? ==> r.error == All(fs, d).error
    ensures r.Ok? ==> Subsequence(FilePaths(r.value), All(fs, d).value)
    ensures r.Ok? ==> forall f :: f in r.value <==> f.path in All(fs, d).value && !IsDir(fs, f.path)
  {
    var all := All(fs, d);
    if all.Err? then Err(all.error) else Ok(KeepNonDirs(fs, all.value))
  }

  function Dirs(fs: FileSystem, d: Dir): (r: Result<seq<Dir>>)
    ensures r.Ok? <==> All(fs, d).Ok?
    ensures r.Err? ==> r.error == All(fs, d).error
    ensures r.Ok? ==> Subsequence(DirPaths(r.value), All(fs, d).value)
    ensures r.Ok? ==> forall dir :: dir in r.value <==> dir.path in All(fs, d).value && !IsFile(fs, dir.path)
  {
    var all := All(fs, d);
    if all.Err? then Err(all.error) else Ok(KeepNonFiles(fs, all.value))
  }

  /** Every entry directly inside the directory lands in exactly one of
      `Files` and `Dirs`, since the filters look at the state the listing
      came from. */
  lemma FilesAndDirsPartitionAll(fs: FileSystem, d: Dir, e: PathHandler)
    requires IsDirectory(fs, d.path) && e in fs && IsChildOf(e, d.path)
    ensures File(e) in Files(fs, d).value <==> IsRegular(fs, e)
    ensures Dir(e) in Dirs(fs, d).value <==> IsDirectory(fs, e)
    ensures (File(e) in Files(fs, d).value) != (Dir(e) in Dirs(fs, d).value)
  {
    AllIsChildren(fs, d);
  }

  // ---------------------------------------------------------------- queries

  function HasDir(fs: FileSystem, d: Dir, name: Name): (r: bool)
    ensures r <==> IsDirectory(fs, d.path + [name])
  {
    var st := Os.Stat(fs, d.path + [name]);
    if st.Err? then false else st.value.Directory?
  }

  function HasFile(fs: FileSystem, d: Dir, name: Name): (r: bool)
    ensures r <==> IsRegular(fs, d.path + [name])
  {
    var st := Os.Stat(fs, d.path + [name]);
    if st.Err? then false else !st.value.Directory?
  }

  lemma HasDirAndHasFileExclusive(fs: FileSystem, d: Dir, name: Name)
    ensures !(HasDir(fs, d, name) && HasFile(fs, d, name))
    ensures !Exists(fs, d.path + [name]) ==> !HasDir(fs, d, name) && !HasFile(fs, d, name)
    ensures Exists(fs, d.path + [name]) ==> HasDir(fs, d, name) || HasFile(fs, d, name)
  {
  }

  /** Listable and without entries; a missing path or a regular file is not
      empty. */
  function IsEmpty(fs: FileSystem, d: Dir): (r: bool)
    ensures r <==> IsDirectory(fs, d.path) && forall n :: d.path + [n] !in fs
  {
    var listing := Os.ReadDir(fs, d.path);
    if listing.Err? then false
    else
      assert listing.value != [] ==> d.path + [listing.value[0]] in fs;
      |listing.value| == 0
  }

  lemma IsEmptyMeansNoChildren(fs: FileSystem, d: Dir)
    ensures IsEmpty(fs, d) <==> IsDirectory(fs, d.path) && ChildNames(fs, d.path) == {}
  {
    if IsDirectory(fs, d.path) && ChildNames(fs, d.path) != {} {
      var n :| n in ChildNames(fs, d.path);
      ChildNamesMembership(fs, d.path, n);
    }
    if !IsEmpty(fs, d) && IsDirectory(fs, d.path) {
      var n :| d.path + [n] in fs;
      ChildNamesMembership(fs, d.path, n);
    }
  }

  // ---------------------------------------------------------------- deletion

  /** `os.Remove` when not recursive, `os.RemoveAll` when recursive. */
  function Delete(fs: FileSystem, d: Dir, recursive: bool): (r: Outcome)
    ensures !recursive ==> (r.err.None? <==> Removable(fs, d.path))
    ensures !recursive && r.err.None? ==> r.fs == fs - {d.path}
    ensures recursive ==> (r.err.None? <==> d.path != [] && !(d.path !in fs && !IsDirectory(fs, Parent(d.path)) && Os.UnderFile(fs, d.path)))
    ensures recursive && Valid(fs) ==> (r.err.None? <==> d.path != [] && !Os.UnderFile(fs, d.path))
    ensures recursive && r.err == Some(ErrNotDir) ==> r.fs == fs
    ensures recursive && r.err != Some(ErrNotDir) ==> forall k :: k in r.fs <==> k in fs && (!(d.path <= k) || k == [])
    ensures forall k :: k in r.fs ==> k in fs && r.fs[k] == fs[k]
    ensures r.err.Some? && !recursive ==> r.fs == fs
    ensures Valid(fs) ==> Valid(r.fs)
  {
    if !recursive then Os.Remove(fs, d.path) else Os.RemoveAll(fs, d.path)
  }

  /** Deletes the named child exactly as `Delete` on its handle would. */
  function DeleteSubDir(fs: FileSystem, d: Dir, name: Name, recursive: bool): (r: Outcome)
    ensures r.err.None? ==> d.path + [name] !in r.fs
    ensures !recursive ==> (r.err.None? <==> Removable(fs, d.path + [name]))
    ensures recursive ==> (r.err.None? <==> !(d.path + [name] !in fs && !IsDirectory(fs, d.path) && Os.UnderFile(fs, d.path + [name])))
    ensures recursive && Valid(fs) ==> (r.err.None? <==> !IsRegular(fs, d.path) && !Os.UnderFile(fs, d.path))
    ensures recursive && r.err.Some? ==> r.err == Some(ErrNotDir) && r.fs == fs
    ensures forall k :: k in fs && !(d.path + [name] <= k) ==> k in r.fs && r.fs[k] == fs[k]
    ensures forall k :: k in r.fs ==> k in fs && r.fs[k] == fs[k]
  {
    var child := d.path + [name];
    Os.UnderFileOfChild(fs, d.path, name);
    if !recursive then Os.Remove(fs, child) else Os.RemoveAll(fs, child)
  }

  /** `PathHandler.DeletePath`: a directory goes to `Dir.Delete(force)`,
      anything else to `File.Delete`. */
  function DeletePath(fs: FileSystem, p: PathHandler, force: bool): (r: Outcome)
    ensures !force ==> (r.err.None? <==> Removable(fs, p))
    ensures !force && r.err.None? ==> r.fs == fs - {p}
    ensures r.err.Some? && !force ==> r.fs == fs
    ensures force && IsDirectory(fs, p) && p != [] ==> r.err.None? && forall k :: k in r.fs <==> k in fs && !(p <= k)
    ensures forall k :: k in r.fs ==> k in fs && r.fs[k] == fs[k]
    ensures Valid(fs) ==> Valid(r.fs)
  {
    if IsDir(fs, p) then Delete(fs, Dir(p), force) else FileHandles.Delete(fs, File(p))
  }

  // ---------------------------------------------------------------- Clear

  lemma ChildNamesWithoutSibling(fs: FileSystem, p: PathHandler, q: PathHandler)
    requires |q| == |p|
    ensures ChildNames(fs - {q}, p) == ChildNames(fs, p)
  {
    forall n ensures n in ChildNames(fs - {q}, p) <==> n in ChildNames(fs, p) {
      ChildNamesMembership(fs - {q}, p, n);
      ChildNamesMembership(fs, p, n);
    }
  }

  /** The loop of `Clear(false)`: `DeletePath(false)` on each path, the
      returned error dropped. Paths of equal length cannot contain one another,
      so each is deleted exactly when it was removable at the start. */
  function DeleteEachIgnoringErrors(fs: FileSystem, paths: seq<PathHandler>): (r: FileSystem)
    requires forall p, q :: p in paths && q in paths ==> |p| == |q|
    ensures forall k :: k in r <==> k in fs && !(k in paths && Removable(fs, k))
    ensures forall k :: k in r ==> r[k] == fs[k]
    decreases |paths|
  {
    if paths == [] then fs
    else
      var step := DeletePath(fs, paths[0], false);
      var r := DeleteEachIgnoringErrors(step.fs, paths[1..]);
      assert forall k :: k in paths[1..] && k in step.fs ==> (Removable(step.fs, k) <==> Removable(fs, k)) by {
        forall k | k in paths[1..] && k in step.fs
          ensures Removable(step.fs, k) <==> Removable(fs, k)
        {
          if step.err.None? {
            ChildNamesWithoutSibling(fs, k, paths[0]);
          }
        }
      }
      r
  }

  /** Removing some removable entries of one directory keeps a state valid:
      a removed entry had no entries of its own. */
  lemma RemovingChildLeavesKeepsValid(fs: FileSystem, r: FileSystem, dir: PathHandler)
    requires Valid(fs)
    requires forall k :: k in r <==> k in fs && !(IsChildOf(k, dir) && Removable(fs, k))
    requires forall k :: k in r ==> r[k] == fs[k]
    ensures Valid(r)
  {
    forall k | k in r && k != []
      ensures Parent(k) in r && r[Parent(k)].Directory?
    {
      var up := Parent(k);
      assert !(IsChildOf(up, dir) && Removable(fs, up)) by {
        assert k == up + [k[|up|]];
        ChildNamesMembership(fs, up, k[|up|]);
      }
    }
  }

  /** `Clear` as written. An empty directory is left alone. `force` deletes
      the whole directory and returns nil without recreating it; only when
      that delete fails is `CreateIfNotExist` called, its error dropped.
      Without `force`, each entry is deleted non-recursively and the stale
      listing error is checked instead of the delete's, so the call returns
      nil whenever the listing succeeded. */
  function Clear(fs: FileSystem, d: Dir, force: bool): (r: Outcome)
    ensures IsEmpty(fs, d) ==> r == Outcome(fs, None)
    ensures force ==> r.err.None?
    ensures force && !IsEmpty(fs, d) && d.path != [] && (d.path in fs || IsDirectory(fs, Parent(d.path)) || !Os.UnderFile(fs, d.path))
            ==> forall k :: k in r.fs <==> k in fs && !(d.path <= k)
    ensures force && Valid(fs) && !IsEmpty(fs, d) && d.path != []
            ==> forall k :: k in r.fs <==> k in fs && !(d.path <= k)
    ensures !force && !IsEmpty(fs, d) ==> (r.err.None? <==> IsDirectory(fs, d.path))
    ensures !force && !IsEmpty(fs, d) && !IsDirectory(fs, d.path) ==> r.fs == fs
    ensures !force && IsDirectory(fs, d.path)
            ==> forall k :: k in r.fs <==> k in fs && !(IsChildOf(k, d.path) && Removable(fs, k))
    ensures forall k :: k in r.fs ==> k in fs && r.fs[k] == fs[k]
    ensures Valid(fs) ==> Valid(r.fs)
  {
    if IsEmpty(fs, d) then
      assert forall k :: k in fs && IsChildOf(k, d.path) ==> k == d.path + [k[|d.path|]];
      Outcome(fs, None)
    else if force then
      var gone := Delete(fs, d, true);
      if gone.err.None? then gone
      else
        var made := CreateIfNotExist(gone.fs, d);
        assert Valid(fs) && d.path != [] ==> made.fs == fs && forall k :: d.path <= k ==> k !in fs by {
          if Valid(fs) && d.path != [] {
            Os.UnderFileMissing(fs, d.path);
            forall k | d.path <= k ensures k !in fs {
              Os.UnderFileBelow(fs, d.path, k);
              Os.UnderFileMissing(fs, k);
            }
          }
        }
        Outcome(made.fs, None)
    else
      var entries := All(fs, d);
      if entries.Err? then Outcome(fs, Some(entries.error))
      else
        AllIsChildren(fs, d);
        var left := DeleteEachIgnoringErrors(fs, entries.value);
        assert Valid(fs) ==> Valid(left) by {
          if Valid(fs) {
            RemovingChildLeavesKeepsValid(fs, left, d.path);
          }
        }
        Outcome(left, None)
  }

  /** `Clear(true)` on a directory with an entry reports success and leaves
      no directory behind: the recreation sits in the branch for a failed
      delete. */
  lemma ClearForceLeavesNoDirectory(fs: FileSystem, d: Dir, n: Name)
    requires IsDirectory(fs, d.path) && d.path != [] && d.path + [n] in fs
    ensures var r := Clear(fs, d, true);
            r.err.None? && d.path !in r.fs && !IsEmpty(r.fs, d)
  {
  }

  /** `Clear(false)` on a directory with a subdirectory that has an entry
      reports success, yet the subdirectory is still there: its failed
      `os.Remove` is never looked at. */
  lemma ClearSwallowsDeleteError(fs: FileSystem, d: Dir, n: Name, m: Name)
    requires Valid(fs) && IsDirectory(fs, d.path) && d.path + [n] + [m] in fs
    ensures var r := Clear(fs, d, false);
            r.err.None? && d.path + [n] in r.fs && !IsEmpty(r.fs, d)
  {
    var c := d.path + [n];
    assert Parent(c + [m]) == c;
    ChildNamesMembership(fs, c, m);
    assert !Removable(fs, c);
  }

  /** The loop of `Clear(false)` as evidently intended: the error of each
      `DeletePath(false)` is checked and the first one is returned. Success
      means every path is gone; nothing else is touched. */
  function DeleteEachStopping(fs: FileSystem, paths: seq<PathHandler>): (r: Outcome)
    ensures forall k :: k in r.fs ==> k in fs && r.fs[k] == fs[k]
    ensures forall k :: k in fs && k !in paths ==> k in r.fs
    ensures r.err.None? ==> forall p :: p in paths ==> p !in r.fs
    ensures Valid(fs) ==> Valid(r.fs)
    decreases |paths|
  {
    if paths == [] then Outcome(fs, None)
    else
      var step := DeletePath(fs, paths[0], false);
      if step.err.Some? then step
      else DeleteEachStopping(step.fs, paths[1..])
  }

  /** `Clear` as evidently intended: `force` deletes the directory and then
      recreates it, returning the first error; without `force` the first
      failed delete is returned. Success leaves the directory in place and
      empty, and nothing outside it changes. */
  function ClearIntended(fs: FileSystem, d: Dir, force: bool): (r: Outcome)
    ensures IsEmpty(fs, d) ==> r == Outcome(fs, None)
    ensures r.err.None? ==> IsEmpty(r.fs, d)
    ensures forall k :: k in fs && !(d.path <= k) ==> k in r.fs && r.fs[k] == fs[k]
    ensures forall k :: k in r.fs && k !in fs ==> k == d.path
  {
    if IsEmpty(fs, d) then Outcome(fs, None)
    else if force then
      var gone := Delete(fs, d, true);
      if gone.err.Some? then gone
      else CreateIfNotExist(gone.fs, d)
    else
      var entries := All(fs, d);
      if entries.Err? then Outcome(fs, Some(entries.error))
      else
        AllIsChildren(fs, d);
        var r := DeleteEachStopping(fs, entries.value);
        assert r.err.None? ==> forall n :: d.path + [n] !in r.fs;
        r
  }

  /** On the input of `ClearSwallowsDeleteError`, the intended
      `Clear(false)` reports an error. */
  lemma ClearIntendedReportsNestedEntry(fs: FileSystem, d: Dir, n: Name, m: Name)
    requires Valid(fs) && IsDirectory(fs, d.path) && d.path + [n] + [m] in fs
    ensures ClearIntended(fs, d, false).err.Some?
  {
    var c := d.path + [n];
    assert Parent(c + [m]) == c;
    var entries := All(fs, d).value;
    AllIsChildren(fs, d);
    assert c in entries;
    assert c + [m] !in entries;
  }

  // ---------------------------------------------------------------- getTree

  /** The loop of `getTree` from the entry at hand on. A directory entry
      panics: the assignment into the nil map fails after the recursive call,
      whose result is therefore never observable and is not evaluated here. */
  function CollectTree(fs: FileSystem, entries: seq<PathHandler>, acc: DirStructure): (r: TreeOutcome)
    ensures r.Built? <==> forall e :: e in entries ==> !IsDir(fs, e)
    ensures r.Built? ==> r.tree == DirStructure(acc.dirs, acc.files + KeepNonDirs(fs, entries))
    decreases |entries|
  {
    if entries == [] then Built(acc)
    else if IsDir(fs, entries[0]) then Panicked
    else
      var r := CollectTree(fs, entries[1..], DirStructure(acc.dirs, acc.files + [File(entries[0])]));
      KeepNonDirsAppend(fs, acc.files, entries);
      r
  }

  lemma KeepNonDirsAppend(fs: FileSystem, files: seq<File>, entries: seq<PathHandler>)
    requires entries != [] && !IsDir(fs, entries[0])
    ensures files + [File(entries[0])] + KeepNonDirs(fs, entries[1..]) == files + KeepNonDirs(fs, entries)
  {
    var head := [File(entries[0])];
    var rest := KeepNonDirs(fs, entries[1..]);
    assert KeepNonDirs(fs, entries) == head + rest;
    AppendAssociative(files, head, rest);
  }

  lemma AppendAssociative<T>(a: seq<T>, b: seq<T>, c: seq<T>)
    ensures a + b + c == a + (b + c)
  {
  }

  /** `getTree`: an empty structure when listing fails; otherwise the files
      in listing order, provided no entry is a directory. */
  function GetTree(fs: FileSystem, d: Dir): (r: TreeOutcome)
    ensures All(fs, d).Err? ==> r == Built(DirStructure(map[], []))
    ensures r.Built? <==> All(fs, d).Err? || forall e :: e in All(fs, d).value ==> !IsDir(fs, e)
    ensures r.Built? ==> r.tree.dirs == map[]
    ensures r.Built? && All(fs, d).Ok? ==> r.tree.files == Files(fs, d).value
  {
    var all := All(fs, d);
    if all.Err? then Built(DirStructure(map[], []))
    else CollectTree(fs, all.value, DirStructure(map[], []))
  }
}

=== FILE: errors.dfy ===
/** Error values of the modelled code and the two wrappers used to return them.

    Go returns a plain `error` that is either nil or not; here that is an
    `Option<Error>` whose `None` stands for nil. Operations that also return a
    value use `Result`. */
module Errors {

  /** The sentinel errors the `os` primitives produce, and the wrappers that
      `File.Copy` adds with `fmt.Errorf("...: %w", err)`. */
  datatype Error =
    | ErrNotExist     // ENOENT, os.ErrNotExist
    | ErrExist        // EEXIST, os.ErrExist
    | ErrNotDir       // ENOTDIR: a path component is a regular file
    | ErrIsDir        // EISDIR: a regular-file operation met a directory
    | ErrNotEmpty     // ENOTEMPTY: rmdir of a directory that has entries
    | ErrBusy         // EBUSY: the root directory cannot be removed
    | ErrIo           // a device-level read or write failure
    | ErrWalkDepth    // the depth budget of Move's walk ran out (see README)
    | CreatingDestination(cause: Error)
    | ReadingSource(cause: Error)
    | WritingDestination(cause: Error)

  datatype Option<+T> = None | Some(value: T)

  datatype Result<+T> = Ok(value: T) | Err(error: Error)
}

=== FILE: file.dfy ===
/** File handles (file.go): creation, deletion and size. `File.Copy` is in
    copy.dfy because it needs the directory logic. */
module FileHandles {
  import opened Errors
  import opened FsModel
  import opened PathHandles
  import Os

  /** The constructor is the path handle's `File()` conversion. */
  function NewFile(p: PathHandler): (f: File)
    ensures f.path == p
  {
    ToFile(p)
  }

  /** The source dereferences the `os.Stat` result before looking at the
      error, so it only returns normally for a path that exists. */
  function Size(fs: FileSystem, f: File): (n: nat)
    requires IsFile(fs, f.path)
    ensures n == |fs[f.path].data|
  {
    |Os.Stat(fs, f.path).value.data|
  }

  function Delete(fs: FileSystem, f: File): (r: Outcome)
    ensures r.err.None? <==> f.path in fs && f.path != [] && (fs[f.path].Directory? ==> ChildNames(fs, f.path) == {})
    ensures r.err.None? ==> r.fs == fs - {f.path}
    ensures r.err.Some? ==> r.fs == fs
    ensures Valid(fs) ==> Valid(r.fs)
  {
    Os.Remove(fs, f.path)
  }

  /** An existing path of either kind is left alone unless `overwrite` is
      set; then it is deleted (ignoring the error) and `os.Create` runs. */
  function Create(fs: FileSystem, f: File, overwrite: bool): (r: Outcome)
    ensures Exists(fs, f.path) && !overwrite ==> r == Outcome(fs, None)
    ensures Valid(fs) && IsFile(fs, f.path) && overwrite ==> r == Outcome(fs[f.path := Regular([])], None)
    ensures (Valid(fs) && IsDir(fs, f.path) && f.path != [] && ChildNames(fs, f.path) == {} && overwrite)
            ==> r == Outcome(fs[f.path := Regular([])], None)
    ensures (IsDir(fs, f.path) && (f.path == [] || ChildNames(fs, f.path) != {}) && overwrite)
            ==> r == Outcome(fs, Some(ErrIsDir))
    ensures !Exists(fs, f.path) ==> (r.err.None? <==> f.path != [] && IsDirectory(fs, Parent(f.path)))
    ensures !Exists(fs, f.path) && r.err.None? ==> r.fs == fs[f.path := Regular([])]
    ensures !Exists(fs, f.path) && r.err.Some? ==> r.fs == fs
    ensures Valid(fs) ==> Valid(r.fs)
  {
    if IsFile(fs, f.path) || Exists(fs, f.path) then
      if overwrite then
        var gone := Delete(fs, f);
        Os.Create(gone.fs, f.path)
      else
        Outcome(fs, None)
    else
      Os.Create(fs, f.path)
  }

  /** `Create(false)`: an existing path is left alone; a missing one is
      made by `os.Create`, whose error is returned. */
  function CreateIfNotExists(fs: FileSystem, f: File): (r: Outcome)
    ensures Exists(fs, f.path) ==> r == Outcome(fs, None)
    ensures !Exists(fs, f.path) ==> (r.err.None? <==> f.path != [] && IsDirectory(fs, Parent(f.path)))
    ensures !Exists(fs, f.path) && r.err.None? ==> r.fs == fs[f.path := Regular([])]
    ensures r.err.Some? ==> r.fs == fs
    ensures r.err.Some? ==> r.err == Some(ErrNotDir) || r.err == Some(ErrNotExist)
    ensures Valid(fs) ==> (r.err == Some(ErrNotDir) <==> Os.UnderFile(fs, f.path))
    ensures Valid(fs) ==> Valid(r.fs)
  {
    Os.UnderFileMissing(fs, f.path);
    Create(fs, f, false)
  }

  /** A second `CreateIfNotExists` after a successful one changes nothing. */
  lemma CreateIfNotExistsIdempotent(fs: FileSystem, f: File)
    ensures var once := CreateIfNotExists(fs, f);
            once.err.None? ==> CreateIfNotExists(once.fs, f) == Outcome(once.fs, None)
  {
  }

  /** Overwriting an existing file empties it. */
  lemma OverwriteEmptiesFile(fs: FileSystem, f: File)
    requires Valid(fs) && IsFile(fs, f.path)
    ensures var r := Create(fs, f, true);
            r.err.None? && IsFile(r.fs, f.path) && Size(r.fs, f) == 0
  {
  }
}

=== FILE: fsmodel.dfy ===
/** The abstract file system the `os` primitives act on.

    A state maps every existing path, written as its sequence of name
    components, to what is stored there. Joining a directory path and a name
    (`filepath.Join(d, name)`, or `d + "/" + name`) is appending the name. */
module FsModel {
  import opened Errors
  import Lexical

  newtype byte = x: int | 0 <= x < 256

  type Name = string

  type Path = seq<Name>

  datatype Node = Regular(data: seq<byte>) | Directory

  type FileSystem = map<Path, Node>

  /** What a state-changing call leaves behind: the new state and Go's error. */
  datatype Outcome = Outcome(fs: FileSystem, err: Option<Error>)

  function Parent(p: Path): Path
    requires p != []
  {
    p[..|p| - 1]
  }

  /** The root exists and is a directory, and every other entry sits in an
      existing directory. */
  ghost predicate Valid(fs: FileSystem)
  {
    && [] in fs && fs[[]].Directory?
    && forall p {:trigger Parent(p) in fs} :: p in fs && p != [] ==> Parent(p) in fs && fs[Parent(p)].Directory?
  }

  predicate IsDirectory(fs: FileSystem, p: Path)
  {
    p in fs && fs[p].Directory?
  }

  predicate IsRegular(fs: FileSystem, p: Path)
  {
    p in fs && fs[p].Regular?
  }

  /** The names of the entries directly inside `p`. */
  function ChildNames(fs: FileSystem, p: Path): set<Name>
  {
    set q | q in fs.Keys && |q| == |p| + 1 && p <= q :: q[|p|]
  }

  lemma ChildNamesMembership(fs: FileSystem, p: Path, n: Name)
    ensures n in ChildNames(fs, p) <==> p + [n] in fs
  {
    if n in ChildNames(fs, p) {
      var q :| q in fs.Keys && |q| == |p| + 1 && p <= q && q[|p|] == n;
      assert q == p + [n];
    }
    if p + [n] in fs {
      var q := p + [n];
      assert q[..|p|] == p;
      assert q[|p|] == n;
    }
  }

  /** In a valid state, a path that exists has every ancestor as a directory. */
  lemma {:induction false} AncestorsAreDirectories(fs: FileSystem, p: Path)
    requires Valid(fs) && p in fs
    ensures forall k :: k < p ==> k in fs && fs[k].Directory?
    decreases |p|
  {
    if p != [] {
      AncestorsAreDirectories(fs, Parent(p));
      forall k | k < p ensures k in fs && fs[k].Directory? {
        if k != Parent(p) {
          assert k < Parent(p);
        }
      }
    }
  }

  /** In a valid state every existing prefix of a directory is a directory. */
  lemma DirectoryLineage(fs: FileSystem, p: Path)
    ensures Valid(fs) && IsDirectory(fs, p) ==> forall k :: k <= p && k in fs ==> fs[k].Directory?
  {
    if Valid(fs) && IsDirectory(fs, p) {
      AncestorsAreDirectories(fs, p);
      forall k | k <= p && k in fs ensures fs[k].Directory? {
        if k != p {
          assert k < p;
        }
      }
    }
  }

  /** Removing a regular file or an empty directory keeps a state valid. */
  lemma RemoveLeafKeepsValid(fs: FileSystem, p: Path)
    ensures Valid(fs) && p in fs && p != [] && (fs[p].Directory? ==> ChildNames(fs, p) == {})
            ==> Valid(fs - {p})
  {
    if Valid(fs) && p in fs && p != [] && (fs[p].Directory? ==> ChildNames(fs, p) == {}) {
      forall k | k in fs - {p} && k != []
        ensures Parent(k) in fs - {p} && fs[Parent(k)].Directory?
      {
        if Parent(k) == p {
          ChildNamesMembership(fs, p, k[|p|]);
        }
      }
    }
  }

  lemma PrefixOfParent(k: Path, p: Path)
    requires k <= p && k != p
    ensures k <= Parent(p)
  {
  }

  /** The prefixes of `p` are `p` and the prefixes of its parent. */
  lemma PrefixesOfChild(fs: FileSystem, p: Path)
    requires p != []
    ensures (forall k :: k <= p && k in fs ==> fs[k].Directory?) <==>
            (forall k :: k <= Parent(p) && k in fs ==> fs[k].Directory?) && (p in fs ==> fs[p].Directory?)
  {
    forall k | k in fs && k <= p && k != p ensures k <= Parent(p) {
      PrefixOfParent(k, p);
    }
  }

  /** The ancestors of `p` together with `p` itself. */
  function Lineage(p: Path): (r: set<Path>)
    ensures |r| == |p| + 1
    ensures forall k :: k in r <==> k <= p
    decreases |p|
  {
    if p == [] then {[]}
    else
      var up := Lineage(Parent(p));
      assert p !in up;
      assert forall k :: k in up + {p} <==> k == p || k in up;
      forall k | k <= p && k != p ensures k in up {
        PrefixOfParent(k, p);
      }
      up + {p}
  }

  lemma {:induction false} SubsetSize<T>(a: set<T>, b: set<T>)
    requires a <= b
    ensures |a| <= |b|
    decreases |a|
  {
    if a != {} {
      var x :| x in a;
      SubsetSize(a - {x}, b - {x});
    }
  }

  /** In a valid state no path is deeper than the number of entries. */
  lemma DepthBelowSize(fs: FileSystem, p: Path)
    requires Valid(fs) && p in fs
    ensures |p| < |fs|
  {
    AncestorsAreDirectories(fs, p);
    forall k | k in Lineage(p) ensures k in fs.Keys {
      if k != p {
        assert k < p;
      }
    }
    SubsetSize(Lineage(p), fs.Keys);
  }

  /** Two directory paths neither of which contains the other. */
  predicate Disjoint(a: Path, b: Path)
  {
    !(a <= b) && !(b <= a)
  }

  /** A path below `a` is never an ancestor of, nor inside, a path below a
      disjoint `b`. */
  lemma DisjointBelow(a: Path, b: Path, x: Path, y: Path)
    requires Disjoint(a, b) && a <= x && b <= y
    ensures !(x <= y) && !(y <= x)
  {
  }
}

=== FILE: handles.dfy ===
/** Path handles. A `PathHandler` is a path and nothing else; `Dir` and `File`
    wrap one without checking what it denotes. Every query looks at the state
    it is given afresh, as the Go methods call `os.Stat` each time. */
module PathHandles {
  import opened FsModel
  import Os

  type PathHandler = Path

  datatype Dir = Dir(path: PathHandler)

  datatype File = File(path: PathHandler)

  /** True iff `os.Stat` succeeds; never an error. */
  predicate Exists(fs: FileSystem, p: PathHandler)
  {
    Os.Stat(fs, p).Ok?
  }

  predicate IsFile(fs: FileSystem, p: PathHandler)
  {
    var st := Os.Stat(fs, p);
    st.Ok? && st.value.Regular?
  }

  predicate IsDir(fs: FileSystem, p: PathHandler)
  {
    var st := Os.Stat(fs, p);
    st.Ok? && st.value.Directory?
  }

  /** The final component; the root has none. */
  function Name(p: PathHandler): Name
  {
    if p == [] then "" else p[|p| - 1]
  }

  /** The narrowing conversions keep the path as it is. */
  function ToDir(p: PathHandler): (d: Dir)
    ensures d.path == p
  {
    Dir(p)
  }

  function ToFile(p: PathHandler): (f: File)
    ensures f.path == p
  {
    File(p)
  }

  /** The three classifications agree with the state: a path is a file or a
      directory exactly when it exists, and never both. */
  lemma Classification(fs: FileSystem, p: PathHandler)
    ensures Exists(fs, p) <==> p in fs
    ensures IsFile(fs, p) <==> IsRegular(fs, p)
    ensures IsDir(fs, p) <==> IsDirectory(fs, p)
    ensures Exists(fs, p) <==> IsFile(fs, p) || IsDir(fs, p)
    ensures !(IsFile(fs, p) && IsDir(fs, p))
  {
  }

  /** The final component of a joined path is the name joined. */
  lemma NameOfJoin(p: PathHandler, n: Name)
    ensures Name(p + [n]) == n
  {
  }
}

=== FILE: lexical.dfy ===
/** Byte-wise lexicographic order on names, and the sorted listing of a set of
    names. `os.ReadDir` and `filepath.Walk` both return directory entries sorted
    by file name; comparing code points in order agrees with comparing their
    UTF-8 encodings byte by byte, so `Le` is that order. */
module Lexical {

  /** `a` sorts before or equal to `b`. */
  predicate Le(a: string, b: string)
    decreases |a|
  {
    if |a| == 0 then true
    else if |b| == 0 then false
    else a[0] < b[0] || (a[0] == b[0] && Le(a[1..], b[1..]))
  }

  /** Each name sorts strictly before the next one. */
  predicate StrictlySorted(s: seq<string>)
    decreases |s|
  {
    |s| < 2 || (Le(s[0], s[1]) && s[0] != s[1] && StrictlySorted(s[1..]))
  }

  lemma {:induction false} LeTotal(a: string, b: string)
    ensures Le(a, b) || Le(b, a)
    decreases |a|
  {
    if |a| > 0 && |b| > 0 && a[0] == b[0] {
      LeTotal(a[1..], b[1..]);
    }
  }

  lemma {:induction false} LeAntisymmetric(a: string, b: string)
    requires Le(a, b) && Le(b, a)
    ensures a == b
    decreases |a|
  {
    if |a| > 0 {
      LeAntisymmetric(a[1..], b[1..]);
      assert a == [a[0]] + a[1..] && b == [b[0]] + b[1..];
    }
  }

  lemma {:induction false} LeTransitive(a: string, b: string, c: string)
    requires Le(a, b) && Le(b, c)
    ensures Le(a, c)
    decreases |a|
  {
    if |a| > 0 && a[0] == b[0] && b[0] == c[0] {
      LeTransitive(a[1..], b[1..], c[1..]);
    }
  }

  /** Any two positions of a strictly sorted list are in strict order, so
      the list holds no duplicates. */
  lemma {:induction false} StrictlySortedPairs(s: seq<string>)
    requires StrictlySorted(s)
    ensures forall i, j :: 0 <= i < j < |s| ==> Le(s[i], s[j]) && s[i] != s[j]
    decreases |s|
  {
    if |s| >= 2 {
      var t := s[1..];
      StrictlySortedPairs(t);
      forall j | 1 < j < |s| ensures Le(s[0], s[j]) && s[0] != s[j] {
        assert s[j] == t[j - 1] && s[1] == t[0];
        LeTransitive(s[0], s[1], s[j]);
        if s[0] == s[j] {
          LeAntisymmetric(s[0], s[1]);
        }
      }
      forall i, j | 0 <= i < j < |s| ensures Le(s[i], s[j]) && s[i] != s[j] {
        if i > 0 {
          assert s[i] == t[i - 1] && s[j] == t[j - 1];
        }
      }
    }
  }

  predicate IsLeast(m: string, s: set<string>)
  {
    m in s && forall x :: x in s ==> Le(m, x)
  }

  lemma {:induction false} LeastExists(s: set<string>)
    requires s != {}
    ensures exists m :: IsLeast(m, s)
    decreases |s|
  {
    var y :| y in s;
    if s != {y} {
      LeastExists(s - {y});
      var m :| IsLeast(m, s - {y});
      LeTotal(m, y);
      if Le(m, y) {
        assert IsLeast(m, s);
      } else {
        forall x | x in s ensures Le(y, x) {
          if x != y {
            LeTransitive(y, m, x);
          } else {
            LeTotal(y, y);
          }
        }
        assert IsLeast(y, s);
      }
    } else {
      LeTotal(y, y);
      assert IsLeast(y, s);
    }
  }

  lemma LeastUnique(s: set<string>)
    ensures forall m, m' :: IsLeast(m, s) && IsLeast(m', s) ==> m == m'
  {
    forall m, m' | IsLeast(m, s) && IsLeast(m', s) ensures m == m' {
      LeAntisymmetric(m, m');
    }
  }

  /** The least name of a non-empty set. */
  function Least(s: set<string>): (m: string)
    requires s != {}
    ensures m in s
    ensures forall x :: x in s ==> Le(m, x)
  {
    LeastExists(s);
    LeastUnique(s);
    var m :| IsLeast(m, s);
    m
  }

  /** Putting a strictly smaller name in front keeps a list strictly sorted. */
  lemma PrependLeast(m: string, rest: seq<string>)
    requires StrictlySorted(rest)
    requires forall x :: x in rest ==> Le(m, x) && x != m
    ensures StrictlySorted([m] + rest)
  {
    var r := [m] + rest;
    assert r[1..] == rest;
    if rest != [] {
      assert r[1] == rest[0] && rest[0] in rest;
    }
  }

  /** The names of `s` in ascending order, each exactly once. */
  function SortedList(s: set<string>): (r: seq<string>)
    ensures |r| == |s|
    ensures forall x :: x in r <==> x in s
    ensures StrictlySorted(r)
    decreases |s|
  {
    if s == {} then []
    else
      var m := Least(s);
      var rest := SortedList(s - {m});
      PrependLeast(m, rest);
      [m] + rest
  }
}

=== FILE: move.dfy ===
/** `Dir.Move` (dir.go): the walk that relocates a directory tree.

    The source walks the old tree with `filepath.Walk`, which visits a path,
    and for a directory first reads its (sorted) names, then calls the walk
    function on it, then visits each name after an `os.Lstat` of it. All of
    this reads the state as the walk's own renames and directory creations
    leave it, so the model threads the state through the visits. */
module DirMove {
  import opened Errors
  import opened FsModel
  import opened PathHandles
  import Os
  import Lexical

  /** Where the walk sends the entry at `p`: the new path joined with `p`'s
      path relative to the old root (`filepath.Rel`, then `filepath.Join`). */
  function Mirror(root: Path, dest: Path, p: Path): Path
    requires |root| <= |p|
  {
    dest + p[|root|..]
  }

  /** The walk function of `Move` applied to the entry `p`, which `os.Lstat`
      found, followed, for a directory, by the visits of its names. A regular
      file is renamed to its mirror. A directory has its names read, then its
      mirror made with `os.MkdirAll` when `recursive` holds. */
  function VisitEntry(fs: FileSystem, root: Path, dest: Path, recursive: bool, p: Path, fuel: nat): (r: Outcome)
    requires root <= p && p in fs
    decreases fuel, 1
  {
    if fs[p].Regular? then Os.Rename(fs, p, Mirror(root, dest, p))
    else
      var names := Os.ReadDir(fs, p).value;
      var made := if recursive then Os.MkdirAll(fs, Mirror(root, dest, p)) else Outcome(fs, None);
      if made.err.Some? then made
      else VisitNames(made.fs, root, dest, recursive, p, names, fuel)
  }

  /** The visits of the names read from `dir`, in order, stopping at the first
      error. A name whose `os.Lstat` fails hands that error to the walk
      function, which returns it. Each level down spends one unit of `fuel`. */
  function VisitNames(fs: FileSystem, root: Path, dest: Path, recursive: bool, dir: Path, names: seq<Name>, fuel: nat): (r: Outcome)
    requires root <= dir
    decreases fuel, 0, |names|
  {
    if names == [] then Outcome(fs, None)
    else
      var child := dir + [names[0]];
      if child !in fs then Outcome(fs, Some(ErrNotExist))
      else if fuel == 0 then Outcome(fs, Some(ErrWalkDepth))
      else
        var visited := VisitEntry(fs, root, dest, recursive, child, fuel - 1);
        if visited.err.Some? then visited
        else VisitNames(visited.fs, root, dest, recursive, dir, names[1..], fuel)
  }

  /** `Dir.Move` as written. The walk's depth budget is the number of entries
      in the state once the new path is made, which no path of a valid state
      reaches. */
  function Move(fs: FileSystem, d: Dir, newPath: PathHandler, recursive: bool): (r: Outcome)
    ensures !IsDir(fs, d.path) ==> r == Outcome(fs, Some(ErrNotExist))
  {
    if !IsDir(fs, d.path) then Outcome(fs, Some(ErrNotExist))
    else
      var made := Os.MkdirAll(fs, newPath);
      if made.err.Some? then made
      else
        var walked := VisitEntry(made.fs, d.path, newPath, recursive, d.path, |made.fs|);
        if walked.err.Some? then walked
        else if recursive then Os.RemoveAll(walked.fs, d.path)
        else walked
  }

  // ------------------------------------------------ non-recursive moves

  /** Every directory of `r` was already a directory of `fs`. */
  ghost predicate NoNewDirectories(fs: FileSystem, r: FileSystem)
  {
    forall k :: k in r && r[k].Directory? ==> k in fs && fs[k].Directory?
  }

  lemma {:induction false} VisitEntryMakesNoDirectories(fs: FileSystem, root: Path, dest: Path, p: Path, fuel: nat)
    requires root <= p && p in fs
    ensures NoNewDirectories(fs, VisitEntry(fs, root, dest, false, p, fuel).fs)
    decreases fuel, 1
  {
    if fs[p].Directory? {
      VisitNamesMakesNoDirectories(fs, root, dest, p, Os.ReadDir(fs, p).value, fuel);
    }
  }

  lemma {:induction false} VisitNamesMakesNoDirectories(fs: FileSystem, root: Path, dest: Path, dir: Path, names: seq<Name>, fuel: nat)
    requires root <= dir
    ensures NoNewDirectories(fs, VisitNames(fs, root, dest, false, dir, names, fuel).fs)
    decreases fuel, 0, |names|
  {
    if names != [] && dir + [names[0]] in fs && fuel > 0 {
      var child := dir + [names[0]];
      VisitEntryMakesNoDirectories(fs, root, dest, child, fuel - 1);
      var visited := VisitEntry(fs, root, dest, false, child, fuel - 1);
      if visited.err.None? {
        VisitNamesMakesNoDirectories(visited.fs, root, dest, dir, names[1..], fuel);
      }
    }
  }

  /** Without `recursive`, the only directories `Move` can create are the new
      path and its missing ancestors, whatever the outcome. */
  lemma MoveNonRecursiveCreatesNoSubdirectories(fs: FileSystem, d: Dir, newPath: PathHandler)
    ensures var r := Move(fs, d, newPath, false);
            forall k :: k in r.fs && r.fs[k].Directory? ==> (k in fs && fs[k].Directory?) || k <= newPath
  {
    if IsDir(fs, d.path) {
      var made := Os.MkdirAll(fs, newPath);
      if made.err.None? {
        VisitEntryMakesNoDirectories(made.fs, d.path, newPath, d.path, |made.fs|);
      }
    }
  }

  // ------------------------------------------------ relocation

  /** `k` lies below one of `names` inside `base`. */
  predicate Under(base: Path, names: seq<Name>, k: Path)
  {
    base < k && k[|base|] in names
  }

  /** Outside the subtrees at `p` and at `m` nothing changes, and whatever is
      new lies on the way to `m` or below it. */
  ghost predicate EntryFrame(fs: FileSystem, r: FileSystem, p: Path, m: Path)
  {
    && (forall k :: k in fs && !(p <= k) && !(m <= k) ==> k in r && r[k] == fs[k])
    && (forall k :: k in r && k !in fs ==> k <= m || m <= k)
  }

  /** The same for the subtrees below the given names of `dir` and of `m`. */
  ghost predicate NamesFrame(fs: FileSystem, r: FileSystem, dir: Path, m: Path, names: seq<Name>)
  {
    && (forall k :: k in fs && !Under(dir, names, k) && !Under(m, names, k) ==> k in r && r[k] == fs[k])
    && (forall k :: k in r && k !in fs ==> k <= m || Under(m, names, k))
  }

  /** The mirror of the source entry `q` holds what `q` held. */
  ghost predicate Relocated(fs: FileSystem, r: FileSystem, root: Path, dest: Path, q: Path)
    requires root <= q && q in fs
  {
    Mirror(root, dest, q) in r && r[Mirror(root, dest, q)] == fs[q]
  }

  /** What a walk that ends in `r` guarantees about the source entry `q`:
      a regular file is never lost, since it is either where it was or at
      its mirror; on success it has moved, source directories remain, and
      with `recursive` every source directory is mirrored. */
  ghost predicate Results(fs: FileSystem, r: Outcome, root: Path, dest: Path, recursive: bool, q: Path)
    requires root <= q && q in fs
  {
    && (fs[q].Regular? ==> (q in r.fs && r.fs[q] == fs[q]) || Relocated(fs, r.fs, root, dest, q))
    && (r.err.None? && fs[q].Regular? ==> Relocated(fs, r.fs, root, dest, q) && q !in r.fs)
    && (r.err.None? && fs[q].Directory? ==> IsDirectory(r.fs, q))
    && (r.err.None? && recursive && fs[q].Directory? ==> IsDirectory(r.fs, Mirror(root, dest, q)))
  }

  lemma ChildStep(dir: Path, n: Name, k: Path)
    ensures dir + [n] <= k <==> dir < k && k[|dir|] == n
  {
    if dir < k && k[|dir|] == n {
      assert k[..|dir| + 1] == dir + [n];
    }
  }

  lemma MirrorStep(root: Path, dest: Path, dir: Path, q: Path)
    requires root <= dir < q
    ensures Mirror(root, dest, dir) < Mirror(root, dest, q)
    ensures Mirror(root, dest, q)[|Mirror(root, dest, dir)|] == q[|dir|]
  {
    var md := Mirror(root, dest, dir);
    var mq := Mirror(root, dest, q);
    assert q[|root|..][..|dir| - |root|] == dir[|root|..];
    assert mq[..|md|] == md;
  }

  lemma MirrorOfChild(root: Path, dest: Path, dir: Path, n: Name)
    requires root <= dir
    ensures Mirror(root, dest, dir + [n]) == Mirror(root, dest, dir) + [n]
  {
    assert (dir + [n])[|root|..] == dir[|root|..] + [n];
  }

  /** A regular file in a valid state has nothing below it. */
  lemma RegularIsLeaf(fs: FileSystem, p: Path, q: Path)
    requires Valid(fs) && IsRegular(fs, p) && q in fs && p <= q
    ensures q == p
  {
    AncestorsAreDirectories(fs, q);
  }

  /** No name occurs twice. */
  predicate Distinct(names: seq<Name>)
  {
    forall i, j :: 0 <= i < j < |names| ==> names[i] != names[j]
  }

  lemma DistinctTail(names: seq<Name>)
    requires names != [] && Distinct(names)
    ensures names[0] !in names[1..] && Distinct(names[1..])
  {
  }

  /** Below a directory, the path to an entry passes through a child. */
  lemma ChildOnTheWay(fs: FileSystem, p: Path, q: Path)
    requires Valid(fs) && q in fs && p < q
    ensures p + [q[|p|]] in fs
  {
    var c := p + [q[|p|]];
    ChildStep(p, q[|p|], q);
    if c != q {
      AncestorsAreDirectories(fs, q);
      assert c < q;
    }
  }

  /** A visit that stopped before changing anything. */
  lemma NamesUnchanged(fs: FileSystem, r: Outcome, root: Path, dest: Path, recursive: bool, dir: Path, names: seq<Name>)
    requires root <= dir && r.fs == fs && (r.err.None? ==> names == [])
    ensures NamesFrame(fs, r.fs, dir, Mirror(root, dest, dir), names)
    ensures forall q {:trigger Results(fs, r, root, dest, recursive, q)} :: q in fs && root <= q && Under(dir, names, q) ==> Results(fs, r, root, dest, recursive, q)
  {
  }

  /** What `Results` says depends on `q`'s entry only, so it carries over to
      a state that agrees there. */
  lemma ResultsOfEqualEntry(fs: FileSystem, fs': FileSystem, r: Outcome, root: Path, dest: Path, recursive: bool, q: Path)
    requires root <= q && q in fs && q in fs' && fs[q] == fs'[q]
    requires Results(fs', r, root, dest, recursive, q)
    ensures Results(fs, r, root, dest, recursive, q)
  {
  }

  /** What the visit of the entry `p` guarantees, ending in `r`. */
  ghost predicate EntryPost(fs: FileSystem, r: Outcome, root: Path, dest: Path, recursive: bool, p: Path)
    requires root <= p
  {
    && Valid(r.fs)
    && EntryFrame(fs, r.fs, p, Mirror(root, dest, p))
    && forall q {:trigger Results(fs, r, root, dest, recursive, q)} :: q in fs && root <= q && p <= q ==> Results(fs, r, root, dest, recursive, q)
  }

  /** What the visit of the names of `dir` guarantees, ending in `r`. */
  ghost predicate NamesPost(fs: FileSystem, r: Outcome, root: Path, dest: Path, recursive: bool, dir: Path, names: seq<Name>)
    requires root <= dir
  {
    && Valid(r.fs)
    && NamesFrame(fs, r.fs, dir, Mirror(root, dest, dir), names)
    && forall q {:trigger Results(fs, r, root, dest, recursive, q)} :: q in fs && root <= q && Under(dir, names, q) ==> Results(fs, r, root, dest, recursive, q)
  }

  /** The regular-file visit: one rename to the mirror. */
  lemma EntryRegularRelocates(fs: FileSystem, root: Path, dest: Path, recursive: bool, p: Path, fuel: nat)
    requires Valid(fs) && Disjoint(root, dest) && root <= p && IsRegular(fs, p)
    ensures EntryPost(fs, VisitEntry(fs, root, dest, recursive, p, fuel), root, dest, recursive, p)
  {
    var r := VisitEntry(fs, root, dest, recursive, p, fuel);
    var m := Mirror(root, dest, p);
    DisjointBelow(root, dest, p, m);
    assert r == Os.Rename(fs, p, m);
    forall q | q in fs && root <= q && p <= q
      ensures Results(fs, r, root, dest, recursive, q)
    {
      RegularIsLeaf(fs, p, q);
    }
  }

  /** The directory visit, once its names have been visited in the state
      `made` that `os.MkdirAll` of the mirror left. */
  lemma EntryDirRelocates(fs: FileSystem, made: FileSystem, r: Outcome, root: Path, dest: Path, recursive: bool, p: Path, names: seq<Name>)
    requires Valid(fs) && Disjoint(root, dest) && root <= p && IsDirectory(fs, p)
    requires forall n :: n in names <==> p + [n] in fs
    requires forall k :: k in fs ==> k in made && made[k] == fs[k]
    requires forall k :: k in made && k !in fs ==> k <= Mirror(root, dest, p)
    requires recursive ==> IsDirectory(made, Mirror(root, dest, p))
    requires NamesPost(made, r, root, dest, recursive, p, names)
    ensures EntryPost(fs, r, root, dest, recursive, p)
  {
    var m := Mirror(root, dest, p);
    DisjointBelow(root, dest, p, m);
    forall q | q in fs && root <= q && p <= q
      ensures Results(fs, r, root, dest, recursive, q)
    {
      if q == p {
        EntryDirItself(fs, made, r, root, dest, recursive, p, names);
      } else {
        ChildOnTheWay(fs, p, q);
        assert Under(p, names, q);
        ResultsOfEqualEntry(fs, made, r, root, dest, recursive, q);
      }
    }
    forall k | k in fs && !(p <= k) && !(m <= k)
      ensures k in r.fs && r.fs[k] == fs[k]
    {
      assert !Under(p, names, k) && !Under(m, names, k);
    }
  }

  /** The visited directory itself stays, and is mirrored with `recursive`. */
  lemma EntryDirItself(fs: FileSystem, made: FileSystem, r: Outcome, root: Path, dest: Path, recursive: bool, p: Path, names: seq<Name>)
    requires Disjoint(root, dest) && root <= p && IsDirectory(fs, p)
    requires forall k :: k in fs ==> k in made && made[k] == fs[k]
    requires recursive ==> IsDirectory(made, Mirror(root, dest, p))
    requires NamesFrame(made, r.fs, p, Mirror(root, dest, p), names)
    ensures Results(fs, r, root, dest, recursive, p)
  {
    var m := Mirror(root, dest, p);
    DisjointBelow(root, dest, p, m);
    assert !Under(p, names, p) && !Under(m, names, p);
    if recursive {
      assert !Under(p, names, m) && !Under(m, names, m);
    }
  }

  /** A visit of the names of `dir` whose first entry failed. */
  lemma NamesStopRelocates(fs: FileSystem, o: Outcome, root: Path, dest: Path, recursive: bool, dir: Path, names: seq<Name>)
    requires Disjoint(root, dest) && root <= dir && names != [] && dir + [names[0]] in fs
    requires EntryPost(fs, o, root, dest, recursive, dir + [names[0]])
    requires o.err.Some?
    ensures NamesPost(fs, o, root, dest, recursive, dir, names)
  {
    var m := Mirror(root, dest, dir);
    var n0 := names[0];
    var mc := m + [n0];
    MirrorOfChild(root, dest, dir, n0);
    forall q | q in fs && root <= q && Under(dir, names, q)
      ensures Results(fs, o, root, dest, recursive, q)
    {
      ChildStep(dir, n0, q);
    }
    forall k | k in fs && !Under(dir, names, k) && !Under(m, names, k)
      ensures k in o.fs && o.fs[k] == fs[k]
    {
      ChildStep(dir, n0, k);
      ChildStep(m, n0, k);
    }
    forall k | k in o.fs && k !in fs
      ensures k <= m || Under(m, names, k)
    {
      ChildStep(m, n0, k);
      if k <= mc && k != mc {
        PrefixOfParent(k, mc);
      }
    }
  }

  /** A visit of the names of `dir`: the first entry, then the rest. */
  lemma NamesStepRelocates(fs: FileSystem, o: Outcome, r: Outcome, root: Path, dest: Path, recursive: bool, dir: Path, names: seq<Name>)
    requires Disjoint(root, dest) && root <= dir && names != [] && dir + [names[0]] in fs && names[0] !in names[1..]
    requires EntryPost(fs, o, root, dest, recursive, dir + [names[0]])
    requires o.err.None?
    requires NamesPost(o.fs, r, root, dest, recursive, dir, names[1..])
    ensures NamesPost(fs, r, root, dest, recursive, dir, names)
  {
    var m := Mirror(root, dest, dir);
    var n0 := names[0];
    var rest := names[1..];
    var mc := m + [n0];
    MirrorOfChild(root, dest, dir, n0);
    assert forall x :: x in names <==> x == n0 || x in rest by {
      assert names == [n0] + rest;
    }
    forall q | q in fs && root <= q && Under(dir, names, q)
      ensures Results(fs, r, root, dest, recursive, q)
    {
      ChildStep(dir, n0, q);
      DisjointBelow(root, dest, q, mc);
      DisjointBelow(root, dest, q, m);
      if q[|dir|] == n0 {
        assert Results(fs, o, root, dest, recursive, q);
        var mq := Mirror(root, dest, q);
        MirrorStep(root, dest, dir, q);
        DisjointBelow(root, dest, dir, mq);
        assert !Under(dir, rest, mq) && !Under(m, rest, mq);
        assert !Under(dir, rest, q) && !Under(m, rest, q);
      } else {
        assert Under(dir, rest, q);
        ResultsOfEqualEntry(fs, o.fs, r, root, dest, recursive, q);
      }
    }
    forall k | k in fs && !Under(dir, names, k) && !Under(m, names, k)
      ensures k in r.fs && r.fs[k] == fs[k]
    {
      ChildStep(dir, n0, k);
      ChildStep(m, n0, k);
      assert !Under(dir, rest, k) && !Under(m, rest, k);
    }
    forall k | k in r.fs && k !in fs
      ensures k <= m || Under(m, names, k)
    {
      if k in o.fs {
        ChildStep(m, n0, k);
        if k <= mc && k != mc {
          PrefixOfParent(k, mc);
        }
      }
    }
  }

  lemma {:induction false} VisitEntryRelocates(fs: FileSystem, root: Path, dest: Path, recursive: bool, p: Path, fuel: nat)
    requires Valid(fs) && Disjoint(root, dest) && root <= p && p in fs
    ensures EntryPost(fs, VisitEntry(fs, root, dest, recursive, p, fuel), root, dest, recursive, p)
    decreases fuel, 1
  {
    if fs[p].Regular? {
      EntryRegularRelocates(fs, root, dest, recursive, p, fuel);
    } else {
      var m := Mirror(root, dest, p);
      var names := Os.ReadDir(fs, p).value;
      var made := if recursive then Os.MkdirAll(fs, m) else Outcome(fs, None);
      if made.err.None? {
        Lexical.StrictlySortedPairs(names);
        VisitNamesRelocates(made.fs, root, dest, recursive, p, names, fuel);
        EntryDirRelocates(fs, made.fs, VisitNames(made.fs, root, dest, recursive, p, names, fuel), root, dest, recursive, p, names);
      } else {
        DisjointBelow(root, dest, p, m);
      }
    }
  }

  lemma {:induction false} VisitNamesRelocates(fs: FileSystem, root: Path, dest: Path, recursive: bool, dir: Path, names: seq<Name>, fuel: nat)
    requires Valid(fs) && Disjoint(root, dest) && root <= dir && Distinct(names)
    ensures NamesPost(fs, VisitNames(fs, root, dest, recursive, dir, names, fuel), root, dest, recursive, dir, names)
    decreases fuel, 0, |names|
  {
    var r := VisitNames(fs, root, dest, recursive, dir, names, fuel);
    if names == [] || dir + [names[0]] !in fs || fuel == 0 {
      NamesUnchanged(fs, r, root, dest, recursive, dir, names);
    } else {
      var n0 := names[0];
      VisitEntryRelocates(fs, root, dest, recursive, dir + [n0], fuel - 1);
      var o := VisitEntry(fs, root, dest, recursive, dir + [n0], fuel - 1);
      VisitNamesStep(fs, root, dest, recursive, dir, names, fuel);
      if o.err.Some? {
        NamesStopRelocates(fs, o, root, dest, recursive, dir, names);
      } else {
        DistinctTail(names);
        VisitNamesRelocates(o.fs, root, dest, recursive, dir, names[1..], fuel);
        NamesStepRelocates(fs, o, r, root, dest, recursive, dir, names);
      }
    }
  }

  // ------------------------------------------------ the whole move

  /** `Dir.Move` between disjoint trees in a valid state. Whatever the
      outcome, the state stays valid, nothing outside the two trees changes,
      and every regular file of the old tree is either where it was or at
      its place in the new tree with its data. A recursive move that
      succeeds leaves a full mirror of the old tree and removes the old tree;
      one without `recursive` that succeeds has moved every file and kept
      every directory of the old tree. */
  lemma MoveRelocates(fs: FileSystem, d: Dir, newPath: PathHandler, recursive: bool)
    requires Valid(fs) && Disjoint(d.path, newPath)
    ensures var r := Move(fs, d, newPath, recursive);
            && Valid(r.fs)
            && (forall k :: k in fs && !(d.path <= k) && !(newPath <= k) ==> k in r.fs && r.fs[k] == fs[k])
            && (forall k :: k in r.fs && k !in fs ==> k <= newPath || newPath <= k)
            && (forall q :: q in fs && d.path <= q && fs[q].Regular? ==>
                  (q in r.fs && r.fs[q] == fs[q]) || (Mirror(d.path, newPath, q) in r.fs && r.fs[Mirror(d.path, newPath, q)] == fs[q]))
    ensures var r := Move(fs, d, newPath, recursive);
            r.err.None? && recursive ==>
              && (forall q :: q in fs && d.path <= q ==> Mirror(d.path, newPath, q) in r.fs && r.fs[Mirror(d.path, newPath, q)] == fs[q])
              && (forall k :: k in r.fs ==> !(d.path <= k))
    ensures var r := Move(fs, d, newPath, recursive);
            r.err.None? && !recursive ==>
              forall q :: q in fs && d.path <= q ==>
                if fs[q].Regular? then q !in r.fs && Mirror(d.path, newPath, q) in r.fs && r.fs[Mirror(d.path, newPath, q)] == fs[q]
                else IsDirectory(r.fs, q)
  {
    var src := d.path;
    var r := Move(fs, d, newPath, recursive);
    if IsDir(fs, src) {
      var made := Os.MkdirAll(fs, newPath);
      if made.err.None? {
        VisitEntryRelocates(made.fs, src, newPath, recursive, src, |made.fs|);
        var walked := VisitEntry(made.fs, src, newPath, recursive, src, |made.fs|);
        assert EntryPost(made.fs, walked, src, newPath, recursive, src);
        assert Mirror(src, newPath, src) == newPath;
        forall q | q in fs && src <= q
          ensures q in made.fs && made.fs[q] == fs[q]
          ensures Results(made.fs, walked, src, newPath, recursive, q)
        {
        }
        if walked.err.None? && recursive {
          assert r == Os.RemoveAll(walked.fs, src);
          forall q | q in fs && src <= q
            ensures Mirror(src, newPath, q) in r.fs && r.fs[Mirror(src, newPath, q)] == fs[q]
          {
            DisjointBelow(src, newPath, q, Mirror(src, newPath, q));
            assert Results(made.fs, walked, src, newPath, recursive, q);
          }
          forall q | q in fs && src <= q && fs[q].Regular?
            ensures (q in r.fs && r.fs[q] == fs[q]) || (Mirror(src, newPath, q) in r.fs && r.fs[Mirror(src, newPath, q)] == fs[q])
          {
          }
        } else {
          assert r == walked;
        }
        forall k | k in r.fs && k !in fs
          ensures k <= newPath || newPath <= k
        {
          if k in walked.fs && k !in made.fs {
            assert k <= newPath || newPath <= k;
          }
        }
      }
    }
  }

  /** Every entry at or below `p` lies at most `fuel` levels below it. */
  ghost predicate WithinDepth(fs: FileSystem, p: Path, fuel: nat)
  {
    forall q {:trigger q in fs} :: q in fs && p <= q ==> |q| <= |p| + fuel
  }

  lemma {:induction false} VisitEntryWithinDepth(fs: FileSystem, root: Path, dest: Path, recursive: bool, p: Path, fuel: nat)
    requires Valid(fs) && Disjoint(root, dest) && root <= p && p in fs && WithinDepth(fs, p, fuel)
    ensures VisitEntry(fs, root, dest, recursive, p, fuel).err != Some(ErrWalkDepth)
    decreases fuel, 1
  {
    if fs[p].Directory? {
      var m := Mirror(root, dest, p);
      var names := Os.ReadDir(fs, p).value;
      var made := if recursive then Os.MkdirAll(fs, m) else Outcome(fs, None);
      if made.err.None? {
        forall q | q in made.fs && p <= q
          ensures |q| <= |p| + fuel
        {
          if q !in fs {
            DisjointBelow(root, dest, p, m);
          }
        }
        VisitNamesWithinDepth(made.fs, root, dest, recursive, p, names, fuel);
      }
    }
  }

  lemma WithinDepthChild(fs: FileSystem, dir: Path, n: Name, fuel: nat)
    requires WithinDepth(fs, dir, fuel) && dir + [n] in fs
    ensures fuel > 0 && WithinDepth(fs, dir + [n], fuel - 1)
  {
    assert dir <= dir + [n];
    forall q | q in fs && dir + [n] <= q
      ensures |q| <= |dir + [n]| + (fuel - 1)
    {
      assert dir <= q;
    }
  }

  /** A visit below `dir` that adds entries only on the way to or below a
      mirror in the disjoint new tree keeps the depth bound below `dir`. */
  lemma WithinDepthKept(fs: FileSystem, r: FileSystem, root: Path, dest: Path, dir: Path, p: Path, fuel: nat)
    requires Disjoint(root, dest) && root <= dir && WithinDepth(fs, dir, fuel)
    requires |root| <= |p| && EntryFrame(fs, r, p, Mirror(root, dest, p))
    ensures WithinDepth(r, dir, fuel)
  {
    var m := Mirror(root, dest, p);
    forall q | q in r && dir <= q
      ensures q in fs
    {
      DisjointBelow(root, dest, dir, m);
    }
  }

  /** The visit of an entry `p` below `dir` keeps the state valid and the
      depth bound below `dir`: whatever it adds lies in the new tree. */
  lemma VisitEntryKeepsDepth(fs: FileSystem, root: Path, dest: Path, recursive: bool, dir: Path, p: Path, fuel: nat, budget: nat)
    requires Valid(fs) && Disjoint(root, dest) && root <= dir && dir <= p && p in fs
    requires WithinDepth(fs, dir, budget)
    ensures var o := VisitEntry(fs, root, dest, recursive, p, fuel);
            Valid(o.fs) && WithinDepth(o.fs, dir, budget)
  {
    VisitEntryRelocates(fs, root, dest, recursive, p, fuel);
    WithinDepthKept(fs, VisitEntry(fs, root, dest, recursive, p, fuel).fs, root, dest, dir, p, budget);
  }

  /** The visit of the first name stays within the budget, and what it
      leaves keeps the depth bound for the names after it. */
  lemma {:induction false} FirstNameWithinDepth(fs: FileSystem, root: Path, dest: Path, recursive: bool, dir: Path, names: seq<Name>, fuel: nat)
    requires Valid(fs) && Disjoint(root, dest) && root <= dir && WithinDepth(fs, dir, fuel)
    requires names != [] && dir + [names[0]] in fs
    ensures fuel > 0
    ensures var o := VisitEntry(fs, root, dest, recursive, dir + [names[0]], fuel - 1);
            o.err != Some(ErrWalkDepth) && Valid(o.fs) && WithinDepth(o.fs, dir, fuel)
    decreases fuel, 0, 0
  {
    WithinDepthChild(fs, dir, names[0], fuel);
    VisitEntryWithinDepth(fs, root, dest, recursive, dir + [names[0]], fuel - 1);
    VisitEntryKeepsDepth(fs, root, dest, recursive, dir, dir + [names[0]], fuel - 1, fuel);
  }

  lemma {:induction false} VisitNamesWithinDepth(fs: FileSystem, root: Path, dest: Path, recursive: bool, dir: Path, names: seq<Name>, fuel: nat)
    requires Valid(fs) && Disjoint(root, dest) && root <= dir && WithinDepth(fs, dir, fuel)
    ensures VisitNames(fs, root, dest, recursive, dir, names, fuel).err != Some(ErrWalkDepth)
    decreases fuel, 0, |names|
  {
    if names != [] && dir + [names[0]] in fs {
      FirstNameWithinDepth(fs, root, dest, recursive, dir, names, fuel);
      VisitNamesStep(fs, root, dest, recursive, dir, names, fuel);
      var o := VisitEntry(fs, root, dest, recursive, dir + [names[0]], fuel - 1);
      if o.err.None? {
        VisitNamesWithinDepth(o.fs, root, dest, recursive, dir, names[1..], fuel);
      }
    }
  }

  /** Every directory at or below `p` lies fewer than `fuel` levels below it. */
  ghost predicate DirsWithin(fs: FileSystem, p: Path, fuel: nat)
  {
    forall q {:trigger q in fs} :: q in fs && p <= q && fs[q].Directory? ==> |q| < |p| + fuel
  }

  /** Without `recursive` the walk makes no directory, so the directories it
      meets are those present when it starts, and the budget only has to
      exceed their depth. */
  lemma {:induction false} VisitEntryNonRecursiveWithinDepth(fs: FileSystem, root: Path, dest: Path, p: Path, fuel: nat)
    requires root <= p && p in fs && DirsWithin(fs, p, fuel)
    ensures VisitEntry(fs, root, dest, false, p, fuel).err != Some(ErrWalkDepth)
    decreases fuel, 1
  {
    if fs[p].Directory? {
      VisitNamesNonRecursiveWithinDepth(fs, root, dest, p, Os.ReadDir(fs, p).value, fuel);
    }
  }

  lemma DirsWithinKept(fs: FileSystem, r: FileSystem, p: Path, fuel: nat)
    requires NoNewDirectories(fs, r) && DirsWithin(fs, p, fuel)
    ensures DirsWithin(r, p, fuel)
  {
  }

  lemma DirsWithinChild(fs: FileSystem, dir: Path, n: Name, fuel: nat)
    requires fuel > 0 && DirsWithin(fs, dir, fuel)
    ensures DirsWithin(fs, dir + [n], fuel - 1)
  {
    forall q | q in fs && dir + [n] <= q && fs[q].Directory?
      ensures |q| < |dir + [n]| + (fuel - 1)
    {
      assert dir <= q;
    }
  }

  /** One step of the visits of `names`: the first name is visited, and the
      rest follow unless that visit failed. */
  lemma VisitNamesStep(fs: FileSystem, root: Path, dest: Path, recursive: bool, dir: Path, names: seq<Name>, fuel: nat)
    requires root <= dir && names != [] && dir + [names[0]] in fs && fuel > 0
    ensures var o := VisitEntry(fs, root, dest, recursive, dir + [names[0]], fuel - 1);
            VisitNames(fs, root, dest, recursive, dir, names, fuel)
            == if o.err.Some? then o else VisitNames(o.fs, root, dest, recursive, dir, names[1..], fuel)
  {
  }

  lemma {:induction false} VisitNamesNonRecursiveWithinDepth(fs: FileSystem, root: Path, dest: Path, dir: Path, names: seq<Name>, fuel: nat)
    requires root <= dir && fuel > 0 && DirsWithin(fs, dir, fuel)
    ensures VisitNames(fs, root, dest, false, dir, names, fuel).err != Some(ErrWalkDepth)
    decreases fuel, 0, |names|
  {
    if names != [] && dir + [names[0]] in fs {
      var child := dir + [names[0]];
      DirsWithinChild(fs, dir, names[0], fuel);
      VisitEntryNonRecursiveWithinDepth(fs, root, dest, child, fuel - 1);
      VisitEntryMakesNoDirectories(fs, root, dest, child, fuel - 1);
      VisitNamesStep(fs, root, dest, false, dir, names, fuel);
      var o := VisitEntry(fs, root, dest, false, child, fuel - 1);
      if o.err.None? {
        DirsWithinKept(fs, o.fs, dir, fuel);
        VisitNamesNonRecursiveWithinDepth(o.fs, root, dest, dir, names[1..], fuel);
      }
    }
  }

  /** In a valid state the walk of `Move` never runs out of depth when it
      makes no directories, or when the two trees are disjoint: no path of
      the state it starts from is as long as that state has entries, and the
      directories it meets are either in that state or outside the old tree. */
  lemma MoveNeverRunsOutOfDepth(fs: FileSystem, d: Dir, newPath: PathHandler, recursive: bool)
    requires Valid(fs) && (recursive ==> Disjoint(d.path, newPath))
    ensures Move(fs, d, newPath, recursive).err != Some(ErrWalkDepth)
  {
    var src := d.path;
    if IsDir(fs, src) {
      var made := Os.MkdirAll(fs, newPath);
      if made.err.None? {
        forall q | q in made.fs && src <= q
          ensures |q| < |src| + |made.fs|
        {
          DepthBelowSize(made.fs, q);
        }
        if recursive {
          VisitEntryWithinDepth(made.fs, src, newPath, recursive, src, |made.fs|);
        } else {
          VisitEntryNonRecursiveWithinDepth(made.fs, src, newPath, src, |made.fs|);
        }
      }
    }
  }

  /** The walk descends into subdirectories whatever `recursive` says, but
      without it their mirrors are never made, so a file inside one cannot
      be renamed into place. Hence, when nothing lies below the new path
      yet, a non-recursive move succeeds only if every file of the old tree
      sits directly inside it. */
  lemma MoveNonRecursiveMovesOnlyTopLevelFiles(fs: FileSystem, d: Dir, newPath: PathHandler)
    requires Valid(fs) && Disjoint(d.path, newPath)
    requires forall k :: k in fs ==> !(newPath < k)
    ensures var r := Move(fs, d, newPath, false);
            r.err.None? ==> forall q :: q in fs && d.path < q && fs[q].Regular? ==> |q| == |d.path| + 1
  {
    var r := Move(fs, d, newPath, false);
    MoveRelocates(fs, d, newPath, false);
    MoveNonRecursiveCreatesNoSubdirectories(fs, d, newPath);
    if r.err.None? {
      forall q | q in fs && d.path < q && fs[q].Regular?
        ensures |q| == |d.path| + 1
      {
        var mq := Mirror(d.path, newPath, q);
        assert mq in r.fs && |mq| > |newPath|;
        var pm := Parent(mq);
        assert pm in r.fs && r.fs[pm].Directory?;
        assert !(newPath < pm);
        assert newPath <= pm;
      }
    }
  }
}

=== FILE: os.dfy ===
/** The `os` calls the modelled code makes, as functions on the abstract state.

    Each call returns the state it leaves and Go's error (`None` for nil). The
    semantics are the minimal POSIX ones: no permissions, no links, no
    concurrent writers. */
module Os {
  import opened Errors
  import opened FsModel
  import Lexical

  /** A proper prefix of `p` is a regular file, so a lookup of `p` meets a
      file where it needs a directory. */
  predicate UnderFile(fs: FileSystem, p: Path)
  {
    exists i :: 0 <= i < |p| && IsRegular(fs, p[..i])
  }

  /** The error of a lookup that cannot reach the directory holding `p`:
      `ENOTDIR` when a regular file lies on the way, `ENOENT` otherwise. */
  function LookupError(fs: FileSystem, p: Path): Error
  {
    if UnderFile(fs, p) then ErrNotDir else ErrNotExist
  }

  /** In a valid state a path below a regular file cannot exist, and a path
      whose parent is a directory is not below a regular file. */
  lemma UnderFileMissing(fs: FileSystem, p: Path)
    ensures Valid(fs) && UnderFile(fs, p) ==> p !in fs
    ensures Valid(fs) && p != [] && IsDirectory(fs, Parent(p)) ==> !UnderFile(fs, p)
  {
    if Valid(fs) && p != [] && IsDirectory(fs, Parent(p)) {
      AncestorsAreDirectories(fs, Parent(p));
      forall i | 0 <= i < |p| ensures !IsRegular(fs, p[..i]) {
        if i < |p| - 1 {
          assert p[..i] < Parent(p);
        } else {
          assert p[..i] == Parent(p);
        }
      }
    }
    if Valid(fs) && p in fs {
      AncestorsAreDirectories(fs, p);
      forall i | 0 <= i < |p| ensures !IsRegular(fs, p[..i]) {
        assert p[..i] < p;
      }
    }
  }

  /** A child is below a regular file iff its parent is a regular file or
      is itself below one. */
  lemma UnderFileOfChild(fs: FileSystem, p: Path, n: Name)
    ensures UnderFile(fs, p + [n]) <==> IsRegular(fs, p) || UnderFile(fs, p)
  {
    var c := p + [n];
    forall i | 0 <= i <= |p| ensures c[..i] == p[..i] {
    }
    assert p[..|p|] == p;
    if UnderFile(fs, c) {
      var i :| 0 <= i < |c| && IsRegular(fs, c[..i]);
      assert i == |p| ==> IsRegular(fs, p);
      assert i < |p| ==> IsRegular(fs, p[..i]);
    }
    if UnderFile(fs, p) {
      var i :| 0 <= i < |p| && IsRegular(fs, p[..i]);
      assert IsRegular(fs, c[..i]);
    }
    if IsRegular(fs, p) {
      assert IsRegular(fs, c[..|p|]);
    }
  }

  /** Everything at or below a path that is below a regular file is below
      that file too. */
  lemma UnderFileBelow(fs: FileSystem, p: Path, k: Path)
    requires UnderFile(fs, p) && p <= k
    ensures UnderFile(fs, k)
  {
    var i :| 0 <= i < |p| && IsRegular(fs, p[..i]);
    assert k[..i] == p[..i];
  }

  /** `os.Stat` (and `os.Open`): what is stored at `p`, or the lookup error.
      In a valid state it reports `ENOTDIR` exactly for a path below a
      regular file. */
  function Stat(fs: FileSystem, p: Path): (r: Result<Node>)
    ensures r.Ok? <==> p in fs
    ensures r.Ok? ==> r.value == fs[p]
    ensures r.Err? ==> r.error == ErrNotDir || r.error == ErrNotExist
    ensures Valid(fs) ==> (r == Err(ErrNotDir) <==> UnderFile(fs, p))
  {
    UnderFileMissing(fs, p);
    if p in fs then Ok(fs[p]) else Err(LookupError(fs, p))
  }

  /** `os.ReadDir`: the names directly inside directory `p`, sorted. */
  function ReadDir(fs: FileSystem, p: Path): (r: Result<seq<Name>>)
    ensures r.Ok? <==> IsDirectory(fs, p)
    ensures r.Ok? ==> Lexical.StrictlySorted(r.value)
    ensures r.Ok? ==> forall n :: n in r.value <==> p + [n] in fs
    ensures r.Err? ==> r.error == ErrNotDir || r.error == ErrNotExist
    ensures Valid(fs) ==> (r == Err(ErrNotDir) <==> IsRegular(fs, p) || UnderFile(fs, p))
  {
    UnderFileMissing(fs, p);
    if p !in fs then Err(LookupError(fs, p))
    else if fs[p].Regular? then Err(ErrNotDir)
    else
      var names := Lexical.SortedList(ChildNames(fs, p));
      assert forall n :: n in names <==> p + [n] in fs by {
        forall n ensures n in names <==> p + [n] in fs {
          ChildNamesMembership(fs, p, n);
        }
      }
      Ok(names)
  }

  /** `os.Mkdir`: one new directory inside an existing one. */
  function Mkdir(fs: FileSystem, p: Path): (r: Outcome)
    ensures r.err.None? <==> p != [] && p !in fs && IsDirectory(fs, Parent(p))
    ensures r.err.None? ==> r.fs == fs[p := Directory]
    ensures r.err.Some? ==> r.fs == fs
    ensures r.err == Some(ErrExist) <==> p in fs
    ensures r.err.Some? ==> r.err == Some(ErrExist) || r.err == Some(ErrNotDir) || r.err == Some(ErrNotExist)
    ensures Valid(fs) ==> (r.err == Some(ErrNotDir) <==> UnderFile(fs, p))
    ensures Valid(fs) ==> Valid(r.fs)
  {
    UnderFileMissing(fs, p);
    if p in fs then Outcome(fs, Some(ErrExist))
    else if p == [] || !IsDirectory(fs, Parent(p)) then Outcome(fs, Some(LookupError(fs, p)))
    else Outcome(fs[p := Directory], None)
  }

  /** `os.MkdirAll`: `p` and every missing ancestor. It never alters an entry
      that exists, only adds directories along `p`, and in a valid state
      succeeds exactly when no existing prefix of `p` is a regular file. */
  function MkdirAll(fs: FileSystem, p: Path): (r: Outcome)
    ensures forall k :: k in fs ==> k in r.fs && r.fs[k] == fs[k]
    ensures forall k :: k in r.fs && k !in fs ==> k <= p && r.fs[k].Directory?
    ensures r.err.None? ==> IsDirectory(r.fs, p)
    ensures Valid(fs) ==> Valid(r.fs)
    ensures Valid(fs) ==> (r.err.None? <==> forall k :: k <= p && k in fs ==> fs[k].Directory?)
    ensures r.err.Some? ==> r.err == Some(ErrNotDir) || r.err == Some(ErrNotExist)
    decreases |p|
  {
    if p in fs then
      DirectoryLineage(fs, p);
      if fs[p].Directory? then Outcome(fs, None) else Outcome(fs, Some(ErrNotDir))
    else if p == [] then Outcome(fs, Some(ErrNotExist))
    else
      var up := MkdirAll(fs, Parent(p));
      PrefixesOfChild(fs, p);
      if up.err.Some? then up else Mkdir(up.fs, p)
  }

  /** `os.Remove`: a regular file, or a directory with no entries. */
  function Remove(fs: FileSystem, p: Path): (r: Outcome)
    ensures r.err.None? <==> p in fs && p != [] && (fs[p].Directory? ==> ChildNames(fs, p) == {})
    ensures r.err.None? ==> r.fs == fs - {p}
    ensures r.err.Some? ==> r.fs == fs
    ensures p !in fs ==> r.err == Some(ErrNotExist) || r.err == Some(ErrNotDir)
    ensures Valid(fs) ==> (r.err == Some(ErrNotDir) <==> UnderFile(fs, p))
    ensures Valid(fs) ==> Valid(r.fs)
  {
    UnderFileMissing(fs, p);
    if p !in fs then Outcome(fs, Some(LookupError(fs, p)))
    else if p == [] then Outcome(fs, Some(ErrBusy))
    else if fs[p].Directory? && ChildNames(fs, p) != {} then Outcome(fs, Some(ErrNotEmpty))
    else
      RemoveLeafKeepsValid(fs, p);
      Outcome(fs - {p}, None)
  }

  /** The state without `p`'s descendants, and without `p` itself when
      `withRoot` holds. */
  function Prune(fs: FileSystem, p: Path, withRoot: bool): (r: FileSystem)
    ensures forall k :: k in r <==> k in fs && !(p < k) && (withRoot ==> k != p)
    ensures forall k :: k in r ==> r[k] == fs[k]
  {
    map k | k in fs && !(p < k) && (withRoot ==> k != p) :: fs[k]
  }

  /** `os.RemoveAll`: `p` and everything below it; nil when `p` is missing,
      except that a missing `p` whose parent is a regular file or lies below
      one fails with `ErrNotDir`, since the parent cannot be opened as a
      directory. The root is emptied but stays,
      and the call reports `ErrBusy`. */
  function RemoveAll(fs: FileSystem, p: Path): (r: Outcome)
    ensures r.err == Some(ErrBusy) <==> p == []
    ensures r.err.Some? ==> r.err == Some(ErrBusy) || r.err == Some(ErrNotDir)
    ensures r.err == Some(ErrNotDir) <==> p != [] && p !in fs && !IsDirectory(fs, Parent(p)) && UnderFile(fs, p)
    ensures Valid(fs) ==> (r.err == Some(ErrNotDir) <==> p != [] && UnderFile(fs, p))
    ensures r.err == Some(ErrNotDir) ==> r.fs == fs
    ensures r.err != Some(ErrNotDir) ==> forall k :: k in r.fs <==> k in fs && (!(p <= k) || k == [])
    ensures forall k :: k in r.fs ==> k in fs && r.fs[k] == fs[k]
    ensures Valid(fs) ==> Valid(r.fs)
  {
    UnderFileMissing(fs, p);
    if p == [] then Outcome(Prune(fs, p, false), Some(ErrBusy))
    else if p !in fs && !IsDirectory(fs, Parent(p)) && UnderFile(fs, p) then Outcome(fs, Some(ErrNotDir))
    else Outcome(Prune(fs, p, true), None)
  }

  /** `os.Create`: truncate a regular file, or make an empty one in an
      existing directory. */
  function Create(fs: FileSystem, p: Path): (r: Outcome)
    ensures r.err.None? <==> IsRegular(fs, p) || (p != [] && p !in fs && IsDirectory(fs, Parent(p)))
    ensures r.err.None? ==> r.fs == fs[p := Regular([])]
    ensures r.err.Some? ==> r.fs == fs
    ensures r.err == Some(ErrIsDir) <==> IsDirectory(fs, p)
    ensures r.err.Some? ==> r.err == Some(ErrIsDir) || r.err == Some(ErrNotDir) || r.err == Some(ErrNotExist)
    ensures Valid(fs) ==> (r.err == Some(ErrNotDir) <==> UnderFile(fs, p))
    ensures Valid(fs) ==> Valid(r.fs)
  {
    UnderFileMissing(fs, p);
    if p in fs then
      if fs[p].Directory? then Outcome(fs, Some(ErrIsDir)) else Outcome(fs[p := Regular([])], None)
    else if p == [] || !IsDirectory(fs, Parent(p)) then Outcome(fs, Some(LookupError(fs, p)))
    else Outcome(fs[p := Regular([])], None)
  }

  /** `os.Rename` of a regular file: it leaves `src` and appears at `dst`,
      replacing a regular file there. Go looks at `dst` first and refuses a
      directory there with `EEXIST`; the rename itself then fails with the
      lookup error of `dst`. */
  function Rename(fs: FileSystem, src: Path, dst: Path): (r: Outcome)
    requires IsRegular(fs, src)
    ensures r.err.None? <==> src == dst || (dst != [] && IsDirectory(fs, Parent(dst)) && !IsDirectory(fs, dst))
    ensures r.err.None? ==> r.fs == (fs - {src})[dst := fs[src]]
    ensures r.err.Some? ==> r.fs == fs
    ensures r.err.Some? ==> r.err == Some(ErrNotExist) || r.err == Some(ErrNotDir) || r.err == Some(ErrExist)
    ensures r.err == Some(ErrExist) <==> src != dst && IsDirectory(fs, dst)
    ensures Valid(fs) ==> (r.err == Some(ErrNotDir) <==> UnderFile(fs, dst))
    ensures Valid(fs) ==> Valid(r.fs)
  {
    UnderFileMissing(fs, dst);
    UnderFileMissing(fs, src);
    if src == dst then Outcome(fs, None)
    else if IsDirectory(fs, dst) then Outcome(fs, Some(ErrExist))
    else if dst == [] || !IsDirectory(fs, Parent(dst)) then Outcome(fs, Some(LookupError(fs, dst)))
    else Outcome((fs - {src})[dst := fs[src]], None)
  }
}

=== FILE: utils.dfy ===
/** Name validation and platform queries (utils.go).

    Both validators test a name against the regular expression character
    class `[<>:"/\\|?*\x00-\x1F]`; a match anywhere makes the name invalid. The
    class is modelled as the list of ranges it is written with, and Go's
    `MatchString` as a scan for a character inside one of them. */
module Utils {

  /** The ranges of the class, in the order the pattern lists them. */
  const InvalidRanges: seq<(char, char)> :=
    [('<', '<'), ('>', '>'), (':', ':'), ('"', '"'), ('/', '/'), ('\\', '\\'),
     ('|', '|'), ('?', '?'), ('*', '*'), ('\0', '\U{1F}')]

  predicate InClass(c: char)
  {
    exists i :: 0 <= i < |InvalidRanges| && InvalidRanges[i].0 <= c <= InvalidRanges[i].1
  }

  /** The characters Windows reserves in names, and the control characters:
      the set the class is meant to denote, stated independently of it. */
  predicate Forbidden(c: char)
  {
    c in {'<', '>', ':', '"', '/', '\\', '|', '?', '*'} || c as int < 0x20
  }

  lemma ClassIsForbiddenSet(c: char)
    ensures InClass(c) <==> Forbidden(c)
  {
    if Forbidden(c) {
      if c as int < 0x20 {
        assert InvalidRanges[9].0 <= c <= InvalidRanges[9].1;
      } else if c == '<' {
        assert InvalidRanges[0].0 <= c <= InvalidRanges[0].1;
      } else if c == '>' {
        assert InvalidRanges[1].0 <= c <= InvalidRanges[1].1;
      } else if c == ':' {
        assert InvalidRanges[2].0 <= c <= InvalidRanges[2].1;
      } else if c == '"' {
        assert InvalidRanges[3].0 <= c <= InvalidRanges[3].1;
      } else if c == '/' {
        assert InvalidRanges[4].0 <= c <= InvalidRanges[4].1;
      } else if c == '\\' {
        assert InvalidRanges[5].0 <= c <= InvalidRanges[5].1;
      } else if c == '|' {
        assert InvalidRanges[6].0 <= c <= InvalidRanges[6].1;
      } else if c == '?' {
        assert InvalidRanges[7].0 <= c <= InvalidRanges[7].1;
      } else {
        assert InvalidRanges[8].0 <= c <= InvalidRanges[8].1;
      }
    }
  }

  /** `regexp.MatchString` for the class: some character of `s` is in it. */
  function MatchString(s: string): (r: bool)
    ensures r <==> exists i :: 0 <= i < |s| && Forbidden(s[i])
  {
    if s == [] then false
    else
      ClassIsForbiddenSet(s[0]);
      InClass(s[0]) || MatchString(s[1..])
  }

  function IsValidFileName(name: string): (r: bool)
    ensures r <==> forall i :: 0 <= i < |name| ==> !Forbidden(name[i])
  {
    !MatchString(name)
  }

  /** The trailing-character test comes first and indexes the last byte, so an
      empty name makes the Go function panic; it is excluded here. */
  function IsValidDirName(name: string): (r: bool)
    requires |name| > 0
    ensures r ==> IsValidFileName(name)
    ensures !(name == "." || name == "..") && name[|name| - 1] in {' ', '.'} ==> !r
  {
    if !(name == "." || name == "..") && (name[|name| - 1] == ' ' || name[|name| - 1] == '.') then false
    else if MatchString(name) then false
    else true
  }

  /** Directory-name validity is file-name validity plus the trailing rule. */
  lemma DirNameIsFileNamePlusTrailingRule(name: string)
    requires |name| > 0
    ensures IsValidDirName(name) <==>
              IsValidFileName(name) && (name == "." || name == ".." || name[|name| - 1] !in {' ', '.'})
  {
  }

  /** File-name validity is decided character by character. */
  lemma {:induction false} FileNameValidityIsPerCharacter(a: string, b: string)
    ensures IsValidFileName(a + b) <==> IsValidFileName(a) && IsValidFileName(b)
  {
    var ab := a + b;
    assert forall i :: 0 <= i < |a| ==> ab[i] == a[i];
    assert forall i :: 0 <= i < |b| ==> ab[|a| + i] == b[i];
    if IsValidFileName(a) && IsValidFileName(b) {
      forall i | 0 <= i < |ab| ensures !Forbidden(ab[i]) {
        if i >= |a| {
          assert ab[i] == b[i - |a|];
        }
      }
    }
  }

  /** A reserved character anywhere, or a trailing space, rejects a name. */
  lemma ExampleInvalidNames()
    ensures !IsValidFileName("a:b.txt")
    ensures !IsValidDirName("abc ")
  {
    assert Forbidden("a:b.txt"[1]);
  }

  /** The dot names are valid directories, and a plain name is a valid file. */
  lemma ExampleValidNames()
    ensures IsValidDirName(".") && IsValidDirName("..")
    ensures IsValidFileName("normal_name.txt")
    ensures IsValidFileName("")
  {
    var s := "normal_name.txt";
    assert forall i :: 0 <= i < |s| ==> 'a' <= s[i] <= 'z' || s[i] == '_' || s[i] == '.';
  }

  /** `IsWindows` and `IsUnix` read `os.PathSeparator`; here it is a parameter. */
  predicate IsWindows(separator: char)
  {
    separator == '\\'
  }

  predicate IsUnix(separator: char)
  {
    separator == '/'
  }

  function GetSeparator(separator: char): char
  {
    separator
  }

  /** No separator makes the platform both Windows and Unix. */
  lemma PlatformsExclusive(separator: char)
    ensures !(IsWindows(GetSeparator(separator)) && IsUnix(GetSeparator(separator)))
    ensures IsWindows(GetSeparator('\\')) && IsUnix(GetSeparator('/'))
  {
  }
}
